=== FILE: README.md ===
# ServiMex NFSe PDF-to-ABRASF converter: a verified model of the conversion core

The system turns the plain text of a Santos/SP ServiMex service invoice
(NFSe) into an ABRASF 2.x NFSe XML tree. ABRASF is the layout of the
Associação Brasileira das Secretarias de Finanças das Capitais. This project
models the three steps of that conversion in Dafny and proves properties of
each step:

- **Field extraction** (`ServimaxParser`, `parser.dfy`). Each regular
  expression of the parser is a scanner. The scanner says what the pattern
  captures at one start position. `re.search` is the leftmost position at
  which that scanner succeeds (`Text.Search`). Captured Brazilian amounts
  such as `1.234,56` are converted the way the original converts them: every
  point is dropped and the comma becomes the decimal point. The result is an
  exact decimal (`Decimals.Decimal`), not a binary float. Timestamps are read
  by a model of `strptime` that rejects impossible calendar values.
  Each scanner comes with a `...Found` lemma. The lemma says, for text laid
  out as the pattern expects, exactly whether the pattern matches there and
  what it captures. The `...Line` lemmas read whole lines as the invoice
  prints them, such as `Valor dos Serviços R$: 1.234,56`, which gives
  1234.56.
- **Domain record** (`nfse.dfy`). The issuer profile, the seven-amount
  breakdown and the invoice record are datatypes. The record has its fixed
  defaults and its two derived strings `competencia` (`YYYY-MM-DD`) and
  `data_iso` (`YYYY-MM-DDTHH:MM:SS`).
- **XML tree builder** (`AbrasfXmlBuilder`, `xml_builder.dfy`). The element
  tree is the datatype `Element(tag, attrs, text, children)`.
  `build_comp_nfse` and `build_tree` are methods that grow the tree one
  sub-element at a time, in the original's order. They are proved equal to
  a declarative description of the document (`CompNfseOf`, `TreeOf`). The
  properties of the document are then stated as `find` paths and
  child-tag sequences. `_fmt` (`f"{value:.2f}"`) is `Fmt`.

Two smaller modules sit on top of these. `converter.dfy` models the part of
the conversion controller that works on trees:

- taking the `CompNfse` out of a built tree, with its "CompNfse nao
  encontrado" error;
- the per-file document;
- the consolidated `ListaNfse` of several invoices.

`roundtrip.dfy` proves that the two ends agree: the parser reads back what
the builder writes, for amounts and for dates.

Modules: `Wrappers` (Option, Result), `Text` (character classes, greedy
runs, case-insensitive labels, leftmost search, digit strings), `Decimals`,
`Nfse`, `Parser`, `XmlBuilder`, `Converter`, `RoundTrip`.

Three facts about the code shape the model:

- The extractor can raise. Two ValueErrors escape `parse`:
  - `float()` on a malformed amount token such as `1,2,3`;
  - `strptime` on an impossible date-time such as `31/02/2024`.

  Both are the `Err` paths of `Parser.MatchToAmount` and `Parser.Strptime`.
- The timestamp pattern joins the date and the time with `\s*`, so zero or
  more whitespace characters may stand between them, not only one.
- The builder only registers the namespace in ElementTree's global prefix
  table. Its tags are unqualified, so the tree carries no namespace
  (`XmlBuilder.Namespace`).

## Model

| member | source | states |
|---|---|---|
| Parser.NumeroAt | services/parser.py:19 | `NFSe\s*(\d+)` matches at a position only where the label is (ignoring case), never elsewhere, and captures a non-empty digit string |
| Parser.ExtractNumero | services/parser.py:58-60 | the invoice number is a non-empty digit string, and it is the fallback "0" when the pattern matches nowhere |
| Parser.NumeroIsLeftmost | services/parser.py:19 | the number is the capture at the leftmost position where the pattern matches |
| Parser.CodigoAt | services/parser.py:20 | the verification-code pattern matches only where its label is (o/ó, c/ç, a/ã, any case), never elsewhere, and captures a non-empty run of word characters |
| Parser.NumeroFound | services/parser.py:19 | with the label at a position, blanks after it and then a digit run: the pattern matches there if and only if that run is non-empty, and captures the whole run |
| Parser.CodigoFound | services/parser.py:20 | with the label at a position, blanks after it and then a word-character run: the pattern matches there if and only if that run is non-empty, and captures the whole run |
| Parser.ExtractCodigo | services/parser.py:20 | the code is a non-empty word-character run, and it is "XXXXXX" when the pattern matches nowhere |
| Parser.CodigoIsLeftmost | services/parser.py:20 | the code is the capture at the leftmost matching position |
| Parser.AmountAt | services/parser.py:25 | `([\d\.,]+)` matches at a position if and only if an amount character stands there, and then captures the maximal run of digits, points and commas starting there |
| Parser.CurrencyAmountAt | services/parser.py:25 | `R\$[: ]*([\d\.,]+)` matches only where the currency marker is, never elsewhere, and captures an amount token |
| Parser.CurrencyFound | services/parser.py:25 | with `R$` at a position, colons and blanks after it and then an amount-character run: the pattern matches there if and only if that run is non-empty, and captures the whole run |
| Parser.TaxAt | services/parser.py:25-30 | a tax pattern fails at a position if and only if its label is not there or no currency amount follows the label anywhere later; a capture is an amount token |
| Parser.CurrencySearch | services/parser.py:25-30 | the lazy `.*?` search for a currency amount after the label fails if and only if no later position has one |
| Parser.TaxFound | services/parser.py:25-30 | the lazy `.*?` stops at the first currency marker after the label that has an amount after it, and captures that amount |
| Parser.ServiEnd | services/parser.py:10 | `Valor\s*(?:de\|dos)\s*Servi` matches only at a `Valor` label, never elsewhere, and ends just after a `Servi` label |
| Parser.DeDosServi | services/parser.py:10 | `(?:de\|dos)\s*Servi` matches only where `de` or `dos` stands, fails where neither does, and ends just after a `Servi` label that follows it |
| Parser.DeDosServiCases | services/parser.py:10 | where `de` stands the head continues after `de`, and where `dos` stands after `dos` |
| Parser.ServiAfter | services/parser.py:10 | `\s*Servi` ends just after a `Servi` label that only blanks separate from where it starts |
| Parser.ServiAfterFound | services/parser.py:10 | after a blank run, `\s*Servi` matches if and only if `Servi` follows the run, and then ends after it |
| Parser.ServiEndCases | services/parser.py:10 | after `Valor` and blanks, the match goes on after `de` when `de` follows, after `dos` when `dos` follows, and fails when neither does |
| Parser.DeDosExclusive | services/parser.py:10 | `de` and `dos` never both match at one position, so the alternation never has to backtrack |
| Parser.OsTail | services/parser.py:10 | the `os\s*R\$[: ]*.*?([\d\.,]+)` tail matches only at an `os` label, never elsewhere, and captures an amount token |
| Parser.OsTailFound | services/parser.py:10 | after `os`, blanks, `R$`, colons and blanks, the tail captures the amount run at the first amount character that follows, and fails when none follows |
| Parser.FirstAmount | services/parser.py:10 | the lazy `.*?([\d\.,]+)` captures the amount run at the first amount character from its start on |
| Parser.GreedyServicos | services/parser.py:10 | the greedy `\S*` of `Servi\S*os`, trying split points longest first, captures only amount tokens |
| Parser.GreedyCases | services/parser.py:10 | the greedy `\S*` fails if and only if the `os` tail matches at no split point, and otherwise takes the tail at the largest split point that matches |
| Parser.ValorServicoAt | services/parser.py:9-12 | the service-value pattern matches only where its `Valor ... Servi` head does, and captures an amount token |
| Parser.ValorServicoFound | services/parser.py:9-12 | after the head, with the non-blank run that follows: the pattern fails if and only if the `os` tail matches at no split point of that run, and otherwise captures the tail at the largest |
| Parser.Strip | services/parser.py:53 | `strip()` leaves a string unchanged when it starts and ends with a non-blank |
| Parser.TrimEnd | services/parser.py:53 | trailing blanks are exactly those dropped |
| Parser.ToFloatLiteral | services/parser.py:56 | the replacements drop every point, turn every comma into a point and leave no comma; everything else is kept |
| Parser.FloatLiteralOfToken | services/parser.py:56 | the replacements keep the digits in order, give one point per comma, and keep the digits after the first comma as the fraction |
| Parser.MatchToAmount | services/parser.py:50-56 | no match gives 0; a match converts if and only if it has at most one comma and at least one digit, to all its digits over as many places as follow the comma; otherwise it raises with the converted literal |
| Parser.BrazilianAmount | services/parser.py:56 | `ip,fp` with thousands points in `ip` is the number whose digits are those of `ip` then `fp`, with `\|fp\|` decimal places (1.234,56 is 1234.56) |
| Parser.WholeAmount | services/parser.py:56 | an amount without a comma is whole however many points it has (1.234 is 1234) |
| Parser.TwoCommasRejected | services/parser.py:56 | a token with two commas raises ValueError |
| Decimals.DecimalLiteral | services/parser.py:56 | `float()` of a string of digits and points succeeds if and only if it has at most one point and at least one digit, and then gives all its digits with as many places as there are digits after the point |
| Decimals.LiteralOfParts | services/parser.py:56 | the literal `ip.fp` of two digit strings denotes the digits of `ip` then `fp`, with `\|fp\|` places |
| Text.Search | services/parser.py:58-60 | `re.search` reports the first start position at which the pattern matches, with its capture, and reports nothing exactly when the pattern matches nowhere |
| Text.SearchFindsLeftmost | services/parser.py:59 | when a position is the first at which the pattern matches, the search reports it and its capture |
| Text.SearchMisses | services/parser.py:59 | a pattern that matches nowhere is not found |
| Text.SearchBack | services/parser.py:10 | a greedy repetition that gives characters back reports the largest split point at which the rest matches, and nothing exactly when it matches at none |
| Text.SearchBackCases | services/parser.py:10 | that split point is the largest that matches, whichever it is |
| Text.RunEnd | services/parser.py:19 | a greedy run `cls*` ends at the first character outside the class |
| Text.RunEndUnique | services/parser.py:19 | a maximal run is the one the greedy repetition takes |
| Text.LiteralAt | services/parser.py:19 | a literal written verbatim is matched by the case-insensitive pattern for it |
| Text.LiteralNotAt | services/parser.py:19 | a literal is not matched where a character of the text differs from it, ignoring case |
| Parser.ExtractValorServico | services/parser.py:42-44 | the gross value is 0 when the pattern matches nowhere, in particular when no `Valor` label occurs |
| Parser.ValorServicoIsLeftmost | services/parser.py:42-44 | otherwise it is the conversion of the capture at the leftmost matching position |
| Parser.ExtractImposto | services/parser.py:46-48 | a tax amount is 0 when no occurrence of the label is followed by a currency amount, in particular when the label occurs nowhere |
| Parser.ImpostoIsLeftmost | services/parser.py:46-48 | otherwise it is read from the leftmost label occurrence followed by a currency marker and an amount; earlier occurrences without one are passed over |
| Parser.DateTimeAt | services/parser.py:63 | the timestamp pattern matches only where a `DD/MM/YYYY` date is, never elsewhere, and the date and time it captures form a stamp of that shape |
| Parser.DateTimeFound | services/parser.py:63 | with a date at a position and blanks after it: the pattern matches there if and only if an `HH:MM:SS` time follows the blanks, and captures that date and that time |
| Parser.StampOfParts | services/parser.py:66 | a date and a time joined by one blank, as `parse` joins them for strptime, have the stamp shape |
| Parser.Strptime | services/parser.py:66 | strptime succeeds if and only if the digits name a real date-time, which it returns; otherwise it raises with the stamp |
| Parser.ExtractDataEmissao | services/parser.py:62-66 | with no date-time pair anywhere the result is the clock reading `now` |
| Parser.DataEmissaoIsLeftmost | services/parser.py:62-66 | otherwise the leftmost pair decides, and an impossible one raises instead of falling back to the clock |
| Parser.ServimaxParser.Parse | services/parser.py:18-40 | parse succeeds if and only if every conversion succeeds; the record holds the extracted number, code, timestamp and the seven amounts, ISS read from the `Valor ISS` label, the parser's own profile and description unchanged, and the fixed defaults |
| Parser.ParseFirstError | services/parser.py:21-30 | the error `parse` raises is the first in evaluation order: timestamp, service value, then PIS, COFINS, CSLL, IRRF, INSS and ISS |
| Parser.UnmarkedTextParses | services/parser.py:18-40 | text holding no `$` and no `/` always parses, with the clock's time and every amount 0 |
| Parser.NoCurrencyMarker | services/parser.py:25 | without a `$` the currency marker `R$` occurs nowhere |
| Parser.NoServiceValue | services/parser.py:42-44 | without a currency marker the gross service value is 0 |
| Parser.NumeroLine | services/parser.py:19 | from `NFSe 4521` followed by a non-digit or the end, the invoice number is 4521 |
| Parser.CodigoTextIsLabel | services/parser.py:20 | the label spelled with its accents, `Código de Verificação`, is matched by the verification-code label wherever it stands |
| Parser.CodigoLine | services/parser.py:20 | from the accented label, a blank and a code followed by a non-word character or the end, the verification code is that code |
| Parser.CodigoAfter | services/parser.py:20 | the same line after text in which no letter c occurs still gives that code |
| Parser.ImpostoLine | services/parser.py:46-48 | from a tax line `<label> R$ <amount>`, the tax is read from that amount |
| Parser.CurrencyLine | services/parser.py:25 | in ` R$ <amount>`, the currency pattern fails at the blank and captures the whole amount at `R$` |
| Parser.ValorServicoLine | services/parser.py:42-44 | from the line `Valor dos Serviços R$: <amount>`, spelled with ç or with a plain c (any non-blank letter there), the gross value is read from that amount |
| Parser.ValorServicoLineHead | services/parser.py:10 | on that line the head ends after `Servi` and the non-blank run `ços` follows |
| Parser.ValorServicoLineLabels | services/parser.py:10 | on that line `Valor`, `dos` and `Servi` stand where the pattern looks for them |
| Parser.ValorServicoLineTail | services/parser.py:10 | on that line the `os` tail matches at the split point before `os`, with the whole amount, and at no later split point |
| Parser.ValorServicoBrazilianLine | services/parser.py:42-56 | `Valor dos Servicos R$: 1.234,56`, or the same with ç, gives 1234.56: the digits of the integer part then those of the fraction, with as many places as the fraction has |
| Parser.GrossValueExample | services/parser.py:42-56 | the text `Valor dos Servicos R$: 1.234,56` gives exactly 123456 hundredths |
| Parser.AmountFound | services/parser.py:25 | an amount token that runs to the end of the text is captured whole |
| Nfse.DefaultPrestador | models/nfse.py:41-53 | the shipped profile stores CNPJ as 14 digits, CEP as 8 digits and the IBGE municipality code as 7 digits, unformatted |
| Nfse.ValoresDefaultToZero | models/nfse.py:62-68 | all seven amounts of a breakdown built without arguments are 0 |
| Nfse.RecordDefaults | models/nfse.py:95-100 | a record built from the extracted values alone has the description "Servicos conforme NFSe", nature "1", Simples "2", cultural incentive "2", series "U" and type "1"; the two yes/no codes lie in {1, 2} |
| Nfse.NFSeData.Competencia | models/nfse.py:102-104 | the accounting period has ten characters with dashes at positions 4 and 7 |
| Nfse.NFSeData.DataIso | models/nfse.py:106-108 | the ISO time has nineteen characters, `T` at 10 and colons at 13 and 16 |
| Nfse.CompetenciaReadsBack | models/nfse.py:102-104 | the period's three digit fields read back as year, month and day |
| Nfse.DataIsoReadsBack | models/nfse.py:106-108 | the ISO time starts with the accounting period, and its three time fields read back as hour, minute and second |
| Nfse.DerivedStringsDetermineTime | models/nfse.py:102-108 | equal ISO times mean equal issuance times and equal periods |
| XmlBuilder.Fmt | services/xml_builder.py:81-82 | the written amount has a point before its last two characters |
| XmlBuilder.FmtShape | services/xml_builder.py:81-82 | every other character is a digit; there is no grouping, no sign, no currency symbol and no leading zero |
| XmlBuilder.FmtReadsBack | services/xml_builder.py:81-82 | read as a decimal literal, the written text is the amount in hundredths with two places |
| XmlBuilder.CentsExact | services/xml_builder.py:81-82 | for an amount with at most two decimal places the hundredths are exact |
| XmlBuilder.CentsNearest | services/xml_builder.py:81-82 | with more places the hundredths are the nearest ones, ties to even |
| XmlBuilder.RoundHalfEvenNearest | services/xml_builder.py:81-82 | the rounded quotient lies within half a unit of the exact one, and a tie gives an even result |
| XmlBuilder.FmtIdempotent | services/xml_builder.py:81-82 | formatting the amount read back from a written amount gives the same text |
| XmlBuilder.FmtZero | services/xml_builder.py:81-82 | the amount 0 is written "0.00" |
| XmlBuilder.BuildCompNfse | services/xml_builder.py:30-79 | the step-by-step build yields exactly the CompNfse/Nfse/InfNfse document of the record |
| XmlBuilder.BuildIdentificacaoRps | services/xml_builder.py:39-42 | the RPS block holds number, series and type in that order |
| XmlBuilder.BuildValores | services/xml_builder.py:50-57 | the amounts block holds the formatted amounts and IssRetido in the ABRASF order |
| XmlBuilder.BuildServico | services/xml_builder.py:49-62 | the service block holds Valores, ItemListaServico, CodigoMunicipio and Discriminacao |
| XmlBuilder.BuildPrestadorServico | services/xml_builder.py:64-77 | the provider block holds IdentificacaoPrestador, RazaoSocial and Endereco |
| XmlBuilder.BuildEndereco | services/xml_builder.py:70-77 | the address block holds the seven address fields in order |
| XmlBuilder.BuildTree | services/xml_builder.py:17-28 | the tree is the ListaNfse root over the record's CompNfse; it depends on the record alone, so building the same record twice gives equal trees |
| XmlBuilder.FindAt | controllers/converter.py:57 | `find(tag)` returns the child at the first index carrying the tag |
| XmlBuilder.TreeNesting | services/xml_builder.py:26-33 | ListaNfse has exactly one child CompNfse, which has exactly one Nfse, which has exactly one InfNfse, reached by that path |
| XmlBuilder.InfNfseLayout | services/xml_builder.py:33-40 | InfNfse has its ten children in the ABRASF order, `Id` = "NFS" + number, and the number is the text of both Numero and IdentificacaoRps/Numero |
| XmlBuilder.InfNfseReadsBack | services/xml_builder.py:35-64 | each InfNfse leaf holds its record field: the code, both date strings, series, type, the three descriptive codes; Servico and PrestadorServico are the built blocks |
| XmlBuilder.ValoresLayout | services/xml_builder.py:50-57 | Valores has its seven children in the ABRASF order, each amount leaf holds its text, IssRetido is "2" whatever the amounts, and there is no ValorIss |
| XmlBuilder.ServicoLayout | services/xml_builder.py:49-62 | Servico holds Valores, the service item, the municipality code and the description, in that order |
| XmlBuilder.PrestadorReadsBack | services/xml_builder.py:64-70 | the provider block holds the CNPJ, the municipal registration, the legal name and the address |
| XmlBuilder.EnderecoReadsBack | services/xml_builder.py:70-77 | the address children are in order, and each holds its profile field |
| XmlBuilder.TreeBlocks | services/xml_builder.py:49-70 | Servico, Valores, PrestadorServico and Endereco sit at their ABRASF paths below the root |
| XmlBuilder.AmountsWritten | services/xml_builder.py:50-57 | from the root, each amount leaf under Servico/Valores is the formatted amount, ValorIr is the IRRF amount, and IssRetido is "2" |
| XmlBuilder.ProviderWritten | services/xml_builder.py:59-77 | every profile field is in the document, and both Servico/CodigoMunicipio and Endereco/CodigoMunicipio hold the municipality code |
| XmlBuilder.InvoiceWritten | services/xml_builder.py:33-62 | from the root, the Id, number (twice), code, ISO time, period, series, type, descriptive codes and description are at their paths |
| XmlBuilder.TreeIgnoresIss | services/xml_builder.py:50-57 | the ISS amount never reaches the document: changing it leaves the tree unchanged |
| XmlBuilder.TreeDeterminesRecord | services/xml_builder.py:30-79 | two records with the same tree agree on every field except ISS, and on each written amount to the hundredth |
| Converter.CompNfseOfTree | controllers/converter.py:55-60 | the lookup succeeds if and only if the root has a CompNfse child, and then returns exactly the first one `find` reaches; otherwise it fails with "Estrutura XML invalida: CompNfse nao encontrado" |
| Converter.CompNfseOfBuiltTree | controllers/converter.py:55-60 | on a tree from `build_tree` the lookup never fails and returns the record's CompNfse |
| Converter.EmptyRootRejected | controllers/converter.py:57-59 | a root without children is rejected with the "nao encontrado" error |
| Converter.ConvertPerFile | controllers/converter.py:46-53 | the per-file document, re-wrapped from the looked-up CompNfse, is the record's own tree |
| Converter.TakeCompNfse | controllers/converter.py:55-60 | building a record's tree and looking up its CompNfse gives exactly the CompNfse the builder made for the record |
| Converter.Consolidate | controllers/converter.py:37-40 | the loop builds the ListaNfse holding the CompNfse of each record in order |
| Converter.ConsolidatedStep | controllers/converter.py:38-40 | one more record appends its CompNfse after the earlier ones |
| Converter.ConsolidatedChildren | controllers/converter.py:37-40 | the consolidated root has exactly one CompNfse per record, the k-th record's at position k |
| Converter.ConsolidateSingle | controllers/converter.py:46-49 | consolidating one record gives the same document as converting it alone |
| Converter.ConsolidatedLookup | controllers/converter.py:55-60 | looking up CompNfse in a consolidated document gives the first record's, and fails exactly when there are no records |
| RoundTrip.WrittenAmountReadsBack | services/xml_builder.py:81-82 | the written amount, spelled with a decimal comma as the invoice spells it, is parsed back as the same amount in hundredths |
| RoundTrip.StampFieldsOfStamp | services/parser.py:63 | a date-time printed as `DD/MM/YYYY HH:MM:SS` has the stamp shape, its six fields are the digits of the date-time's fields, and the timestamp pattern captures its date and its time |
| RoundTrip.StampReadsBack | services/parser.py:66 | strptime reads the printed stamp back as the date-time it was printed from |
| RoundTrip.TaxLineReadsBack | services/parser.py:46-48 | a tax line printing the written amount with a decimal comma is read back as that amount in hundredths |
| RoundTrip.GrossValueLineReadsBack | services/parser.py:42-44 | the gross-value line, with ç or a plain c, printing the written amount is read back as that amount in hundredths |
| RoundTrip.StampAt | services/parser.py:63 | wherever a printed stamp stands, the timestamp pattern matches there with the date and the time as its groups |
| RoundTrip.StampInText | services/parser.py:62-66 | a stamp printed anywhere after text holding no digit is read as exactly the date-time it was printed from |
| RoundTrip.StampAlone | services/parser.py:62-66 | a stamp alone is read as the date-time it was printed from |
| RoundTrip.IssuedStampExample | services/parser.py:62-66 | `12/03/2024 14:05:30` is read as 12 March 2024, 14:05:30 |
| RoundTrip.IssuedIsoExample | models/nfse.py:102-108 | a record issued at that time has the period `2024-03-12` and the ISO time `2024-03-12T14:05:30` |
| RoundTrip.NumberReachesId | services/xml_builder.py:33-36 | the number read from `NFSe 4521` becomes the `Id` NFS4521 of InfNfse and the text of its Numero; the parse succeeds when the rest holds no `$` and no `/` |
| RoundTrip.HeaderFields | services/parser.py:19-20 | from `NFSe 4521 Código de Verificação AB12XZ` the number is 4521, the code AB12XZ, and no `$` or `/` occurs |
| RoundTrip.HeaderReachesXml | services/xml_builder.py:33-36 | that header parses, and its XML has the `Id` NFS4521, Numero 4521 and CodigoVerificacao AB12XZ, the clock's time and every amount 0 |

## Left out

- Binary floating point. Amounts are exact decimals. For amounts with at
  most two decimal places, which is every amount the invoice prints, `Fmt`
  writes exactly what `f"{value:.2f}"` writes. With more places, `Fmt`
  rounds the exact decimal half to even. Python rounds the nearest binary
  double, which can differ. Loss of precision for very large values is
  not modelled either.
- XmlBuilder.Fmt: proved on the exact decimal, not on the float the
  original holds, for the reason above.
- Unicode classes of the regular-expression engine. `\d` and `\w` are
  ASCII only. IGNORECASE folds ASCII letters and ó, ç, ã only. `\s` is
  Python's full `str.isspace` set.
- Microseconds of `datetime`. No output shows them, and the clock reading
  `datetime.now()` is a parameter (`now`).
- Nfse.NFSeData.Competencia: years below 1000 are written with four
  digits. The platform's `strftime("%Y")` may write fewer.
- Nfse.NFSeData.DataIso: the same four-digit year as `Competencia`.
- In-place construction with `ET.SubElement`. The original attaches each
  element to its parent first and fills it in afterwards. The model builds
  each block as a value and appends it when it is complete. The order of
  the children is the same. Aliasing between a parent and a child filled
  in later is not modelled.
- `ET.register_namespace` changes only ElementTree's global prefix table.
  The namespace string is kept as a constant.
- XML serialisation: text escaping, the UTF-8 encoding and the XML
  declaration of `ElementTree.write`.
- The file-level parts of controllers/converter.py:
  - listing and sorting `*.pdf`, and the FileNotFoundError when there are
    none;
  - `mkdir`;
  - writing files;
  - resolving the output path.

  The records of the consolidated run are given in the sorted-filename
  order.
- Parser.NumeroAt: its own contract gives only where it can match and the
  shape of the capture. Which digits it captures is stated by
  Parser.NumeroFound.
- Parser.CodigoAt: likewise, with the capture stated by Parser.CodigoFound.
- Parser.CurrencyAmountAt: likewise, with the capture stated by
  Parser.CurrencyFound.
- Parser.TaxAt: which currency amount it captures is stated by
  Parser.TaxFound.
- Parser.ServiEnd: where it ends is stated by Parser.ServiEndCases and
  Parser.ServiAfterFound.
- Parser.ServiAfter: where it ends is stated by Parser.ServiAfterFound.
- Parser.OsTail: what it captures is stated by Parser.OsTailFound.
- Parser.GreedyServicos: which split point it takes is stated by
  Parser.GreedyCases.
- Parser.ValorServicoAt: when it matches, and what it captures, is stated
  by Parser.ValorServicoFound.
- Parser.ExtractImposto: which occurrence decides is stated by
  Parser.ImpostoIsLeftmost.
- Parser.DateTimeAt: when it matches, and what it captures, is stated by
  Parser.DateTimeFound.
- services/pdf_reader.py (pdfminer text extraction), views/gui.py (Tkinter
  and a worker thread), views/cli.py and extrator_pdf.py are not part of
  this model.

=== FILE: converter.dfy ===
/** The part of the conversion controller (controllers/converter.py) that
    works on trees: taking the CompNfse out of the tree built for one
    invoice, wrapping it alone in a ListaNfse for the per-file output, and
    gathering the CompNfse of every invoice under one ListaNfse for the
    consolidated output. Reading PDFs, listing directories and writing files
    stay outside the model; the records the parser produced are the input. */
module Converter {
  import opened Wrappers
  import opened Nfse
  import opened XmlBuilder

  const MissingCompNfse: string := "Estrutura XML invalida: CompNfse nao encontrado"

  /** `_convert_to_element` after the tree is built: the first CompNfse
      child of the root, or the error the original raises as ValueError. */
  function CompNfseOfTree(root: Element): (r: Result<Element, string>)
    ensures r.Ok? <==> Find(root, "CompNfse").Some?
    ensures r.Ok? ==> Find(root, "CompNfse") == Some(r.value) && r.value.tag == "CompNfse"
    ensures r.Err? ==> r.error == MissingCompNfse
  {
    match Find(root, "CompNfse")
    case None => Err(MissingCompNfse)
    case Some(c) => FindTagged(root.children, "CompNfse"); Ok(c)
  }

  /** What `find` returns carries the tag it was asked for. */
  lemma {:induction false} FindTagged(children: seq<Element>, tag: string)
    ensures FirstWithTag(children, tag).Some? ==> FirstWithTag(children, tag).value.tag == tag
    decreases |children|
  {
    if children != [] && children[0].tag != tag {
      FindTagged(children[1..], tag);
    }
  }

  /** On the tree `build_tree` makes, the lookup never fails and gives back
      exactly the CompNfse that `build_comp_nfse` made. */
  lemma CompNfseOfBuiltTree(data: NFSeData)
    ensures CompNfseOfTree(TreeOf(data)) == Ok(CompNfseOf(data))
  {
    FindAt(TreeOf(data), "CompNfse", 0);
  }

  /** A root without any CompNfse child is rejected. */
  lemma EmptyRootRejected()
    ensures CompNfseOfTree(NewElement("ListaNfse")) == Err(MissingCompNfse)
  {
  }

  /** `_convert_per_file` without the file: the CompNfse of one record,
      taken from its tree and wrapped in a fresh ListaNfse root. */
  method ConvertPerFile(data: NFSeData) returns (root: Element)
    ensures root == TreeOf(data)
  {
    var compNfse := TakeCompNfse(data);
    root := NewElement("ListaNfse");
    root := Append(root, compNfse);
  }

  /** `_convert_to_element` for one record: build its tree and take the
      CompNfse out of it. */
  method TakeCompNfse(data: NFSeData) returns (compNfse: Element)
    ensures compNfse == CompNfseOf(data)
  {
    var tree := BuildTree(data);
    CompNfseOfBuiltTree(data);
    compNfse := CompNfseOfTree(tree).value;
  }

  /** The consolidated document: one ListaNfse holding the CompNfse of
      every record, in the order of the records. */
  function ConsolidatedOf(records: seq<NFSeData>): Element {
    Element("ListaNfse", map[], None, Each(records, CompNfseOf))
  }

  /** `f` applied to every element of `xs`, in order. */
  function Each<X, Y>(xs: seq<X>, f: X -> Y): seq<Y>
    decreases |xs|
  {
    if xs == [] then [] else Each(xs[..|xs| - 1], f) + [f(xs[|xs| - 1])]
  }

  lemma {:induction false} EachAt<X, Y>(xs: seq<X>, f: X -> Y)
    ensures |Each(xs, f)| == |xs|
    ensures forall k :: 0 <= k < |xs| ==> Each(xs, f)[k] == f(xs[k])
    decreases |xs|
  {
    if xs != [] {
      EachAt(xs[..|xs| - 1], f);
    }
  }

  lemma EachStep<X, Y>(xs: seq<X>, f: X -> Y, i: nat)
    requires i < |xs|
    ensures Each(xs[..i + 1], f) == Each(xs[..i], f) + [f(xs[i])]
  {
    assert xs[..i + 1][..i] == xs[..i];
  }

  /** `convert_directory` with an output path, after the records are parsed:
      a loop that builds each record's tree, takes its CompNfse out and
      appends it to the consolidated root. */
  method Consolidate(records: seq<NFSeData>) returns (root: Element)
    ensures root == ConsolidatedOf(records)
  {
    root := NewElement("ListaNfse");
    for i := 0 to |records|
      invariant root == ConsolidatedOf(records[..i])
    {
      var compNfse := TakeCompNfse(records[i]);
      root := Append(root, compNfse);
      ConsolidatedStep(records, i);
    }
    assert records[..|records|] == records;
  }

  /** Consolidating one more record appends its CompNfse after the others. */
  lemma ConsolidatedStep(records: seq<NFSeData>, i: nat)
    requires i < |records|
    ensures ConsolidatedOf(records[..i + 1]) == Append(ConsolidatedOf(records[..i]), CompNfseOf(records[i]))
  {
    EachStep(records, CompNfseOf, i);
  }

  /** The consolidated root has one CompNfse per record, the k-th record's
      at position k, and nothing else. */
  lemma ConsolidatedChildren(records: seq<NFSeData>)
    ensures var root := ConsolidatedOf(records);
      && root.tag == "ListaNfse" && |root.children| == |records|
      && forall k :: 0 <= k < |records| ==> root.children[k] == CompNfseOf(records[k]) && root.children[k].tag == "CompNfse"
  {
    EachAt(records, CompNfseOf);
  }

  /** Consolidating a single record gives the same document as converting
      it on its own. */
  lemma ConsolidateSingle(data: NFSeData)
    ensures ConsolidatedOf([data]) == TreeOf(data)
  {
    EachStep([data], CompNfseOf, 0);
    assert [data][..0] == [] && [data][..1] == [data];
  }

  /** Looking up CompNfse in a consolidated document gives the first
      record's, and fails exactly when there are no records. */
  lemma ConsolidatedLookup(records: seq<NFSeData>)
    ensures records == [] <==> CompNfseOfTree(ConsolidatedOf(records)).Err?
    ensures records != [] ==> CompNfseOfTree(ConsolidatedOf(records)) == Ok(CompNfseOf(records[0]))
  {
    ConsolidatedChildren(records);
    if records != [] {
      FindAt(ConsolidatedOf(records), "CompNfse", 0);
    }
  }
}

=== FILE: decimals.dfy ===
/** Exact decimal amounts, and Python's `float()` applied to the only kind of
    string the NFSe parser ever hands it: digits with at most one point.
    The original keeps every amount in a binary float; this model keeps the
    exact decimal the text spelled, which is what the two-decimal output
    shows for every amount written with at most two fractional digits. */
module Decimals {
  import opened Wrappers
  import opened Text

  /** The amount units / 10^scale: Decimal(123456, 2) is 1234.56. */
  datatype Decimal = Decimal(units: nat, scale: nat)

  /** 0.0, the value of every amount the text does not mention. */
  const Zero: Decimal := Decimal(0, 0)

  /** Two decimals denote the same number (1.5 and 1.50, say). */
  predicate SameValue(a: Decimal, b: Decimal) {
    a.units * Pow10(b.scale) == b.units * Pow10(a.scale)
  }

  // ---------------------------------------------------------------------
  // Small string functions, all recursive on the first character
  // ---------------------------------------------------------------------

  function CountChar(s: string, c: char): nat {
    if s == [] then 0 else (if s[0] == c then 1 else 0) + CountChar(s[1..], c)
  }

  /** The digits of `s`, in order, with every other character dropped. */
  function DigitsOf(s: string): (r: string)
    ensures IsDigits(r)
  {
    if s == [] then [] else (if IsDigit(s[0]) then [s[0]] else []) + DigitsOf(s[1..])
  }

  /** What follows the first occurrence of `c` in `s` ("" when there is none). */
  function AfterFirst(s: string, c: char): string {
    if s == [] then [] else if s[0] == c then s[1..] else AfterFirst(s[1..], c)
  }

  /** Strings made only of digits and points. */
  predicate IsPlainLiteral(s: string) {
    forall i :: 0 <= i < |s| ==> IsDigit(s[i]) || s[i] == '.'
  }

  /** Python's `float(s)` for a string of digits and points: a literal with
      at most one point and at least one digit ("12", "12.5", ".5", "5.")
      denotes the number its digits spell with as many fractional digits as
      follow the point; anything else ("", ".", "1.2.3") raises ValueError,
      which is None here. */
  function DecimalLiteral(s: string): (r: Option<Decimal>)
    requires IsPlainLiteral(s)
    ensures r.Some? <==> CountChar(s, '.') <= 1 && DigitsOf(s) != ""
    ensures r.Some? ==> r.value.units == DigitsValue(DigitsOf(s))
    ensures r.Some? ==> r.value.scale == |DigitsOf(AfterFirst(s, '.'))|
  {
    if CountChar(s, '.') > 1 || DigitsOf(s) == "" then None
    else Some(Decimal(DigitsValue(DigitsOf(s)), |DigitsOf(AfterFirst(s, '.'))|))
  }

  // ---------------------------------------------------------------------
  // Facts about the string functions
  // ---------------------------------------------------------------------

  lemma DigitsOfAppend(a: string, b: string)
    ensures DigitsOf(a + b) == DigitsOf(a) + DigitsOf(b)
    ensures CountChar(a + b, '.') == CountChar(a, '.') + CountChar(b, '.')
  {
    DigitsOfConcat(a, b);
    CountConcat(a, b);
  }

  lemma {:induction false} DigitsOfConcat(a: string, b: string)
    ensures DigitsOf(a + b) == DigitsOf(a) + DigitsOf(b)
    decreases |a|
  {
    if a == [] {
      assert a + b == b;
    } else {
      var ab, h := a + b, if IsDigit(a[0]) then [a[0]] else [];
      assert ab[0] == a[0] && ab[1..] == a[1..] + b;
      DigitsOfConcat(a[1..], b);
      calc {
        DigitsOf(ab);
        h + DigitsOf(a[1..] + b);
        h + (DigitsOf(a[1..]) + DigitsOf(b));
        (h + DigitsOf(a[1..])) + DigitsOf(b);
      }
    }
  }

  lemma {:induction false} CountConcat(a: string, b: string)
    ensures CountChar(a + b, '.') == CountChar(a, '.') + CountChar(b, '.')
    decreases |a|
  {
    if a == [] {
      assert a + b == b;
    } else {
      assert (a + b)[1..] == a[1..] + b;
      CountConcat(a[1..], b);
    }
  }

  /** A digit string has no point and is its own digit list. */
  lemma {:induction false} DigitsOfDigits(s: string)
    requires IsDigits(s)
    ensures DigitsOf(s) == s
    ensures CountChar(s, '.') == 0
    decreases |s|
  {
    if s != [] {
      DigitsOfDigits(s[1..]);
      assert s == [s[0]] + s[1..];
    }
  }

  /** Reading back `ip.fp`: the literal a formatter writes as integer digits,
      a point and fractional digits denotes exactly those digits with
      `|fp|` fractional places. */
  lemma LiteralOfParts(ip: string, fp: string)
    requires IsDigits(ip) && IsDigits(fp) && |ip| + |fp| >= 1
    ensures IsPlainLiteral(ip + "." + fp)
    ensures DecimalLiteral(ip + "." + fp) == Some(Decimal(DigitsValue(ip + fp), |fp|))
  {
    PlainLiteralOfParts(ip, fp);
    PartsOfLiteral(ip, fp);
  }

  lemma PartsOfLiteral(ip: string, fp: string)
    requires IsDigits(ip) && IsDigits(fp)
    ensures var s := ip + "." + fp;
      DigitsOf(s) == ip + fp && CountChar(s, '.') == 1 && DigitsOf(AfterFirst(s, '.')) == fp
  {
    DigitsOfDigits(ip);
    DigitsOfDigits(fp);
    assert DigitsOf(".") == "" && CountChar(".", '.') == 1 by {
      assert "."[1..] == "";
    }
    DigitsOfAppend(ip, ".");
    DigitsOfAppend(ip + ".", fp);
    AfterPointOfParts(ip, fp);
  }

  lemma PlainLiteralOfParts(ip: string, fp: string)
    requires IsDigits(ip) && IsDigits(fp)
    ensures IsPlainLiteral(ip + "." + fp)
  {
    var s := ip + "." + fp;
    forall i | 0 <= i < |s| ensures IsDigit(s[i]) || s[i] == '.' {
      if i > |ip| {
        assert s[i] == fp[i - |ip| - 1];
      }
    }
  }

  lemma {:induction false} AfterPointOfParts(ip: string, fp: string)
    requires IsDigits(ip)
    ensures AfterFirst(ip + "." + fp, '.') == fp
    decreases |ip|
  {
    if ip == [] {
      assert ip + "." + fp == ['.'] + fp;
    } else {
      assert (ip + "." + fp)[1..] == ip[1..] + "." + fp;
      AfterPointOfParts(ip[1..], fp);
    }
  }
}

=== FILE: nfse.dfy ===
/** The domain record of one Santos/SP service invoice (NFSe): the issuer
    profile, the seven-amount breakdown and the invoice record with its two
    derived date strings (models/nfse.py). All three are values here:
    Prestador is a frozen dataclass in the original, and nothing in the
    conversion ever updates a ValoresServico or an NFSeData after it is built. */
module Nfse {
  import opened Text
  import opened Decimals

  // ---------------------------------------------------------------------
  // Timestamps
  // ---------------------------------------------------------------------

  predicate IsLeapYear(y: nat) {
    y % 4 == 0 && (y % 100 != 0 || y % 400 == 0)
  }

  /** Days in a month of the proleptic Gregorian calendar Python uses. */
  function DaysInMonth(y: nat, m: nat): (d: nat)
    requires 1 <= m <= 12
    ensures 28 <= d <= 31
  {
    if m == 2 then (if IsLeapYear(y) then 29 else 28)
    else if m == 4 || m == 6 || m == 9 || m == 11 then 30
    else 31
  }

  /** A Python `datetime` to the second (its microseconds never reach the
      output and are left out). */
  datatype DateTime = DateTime(year: nat, month: nat, day: nat, hour: nat, minute: nat, second: nat) {
    /** The values `datetime` accepts: years 1 to 9999 and a real calendar day. */
    predicate Valid() {
      1 <= year <= 9999 && 1 <= month <= 12 && 1 <= day <= DaysInMonth(year, month)
      && hour < 24 && minute < 60 && second < 60
    }
  }

  /** Every `datetime` object is valid by construction. */
  type ValidDateTime = t: DateTime | t.Valid() witness DateTime(1, 1, 1, 0, 0, 0)

  // ---------------------------------------------------------------------
  // Issuer profile
  // ---------------------------------------------------------------------

  /** The service provider: immutable, shared by every record of a run.
      CNPJ and CEP are stored without punctuation. */
  datatype Prestador = Prestador(
    cnpj: string,
    inscricaoMunicipal: string,
    razaoSocial: string,
    endereco: string,
    numero: string,
    complemento: string,
    bairro: string,
    municipio: string,          // IBGE code of the municipality
    uf: string,
    cep: string,
    itemListaServico: string)

  /** The profile the original ships as DEFAULT_PRESTADOR. */
  function DefaultPrestador(): (p: Prestador)
    ensures |p.cnpj| == 14 && IsDigits(p.cnpj)
    ensures |p.cep| == 8 && IsDigits(p.cep)
    ensures |p.municipio| == 7 && IsDigits(p.municipio)
  {
    Prestador(
      cnpj := "58149782000105",
      inscricaoMunicipal := "11447",
      razaoSocial := "SERVIMEX LOGISTICA LTDA",
      endereco := "R AUGUSTO SEVERO",
      numero := "7",
      complemento := "ANDAR 3 ANDAR 5 ANDAR 6A",
      bairro := "CENTRO",
      municipio := "3548500",
      uf := "SP",
      cep := "11010919",
      itemListaServico := "0107")
  }

  // ---------------------------------------------------------------------
  // Amounts
  // ---------------------------------------------------------------------

  /** Gross service value and the six withheld taxes, each 0 unless given. */
  datatype ValoresServico = ValoresServico(
    valorServicos: Decimal := Zero,
    pis: Decimal := Zero,
    cofins: Decimal := Zero,
    csll: Decimal := Zero,
    irrf: Decimal := Zero,
    inss: Decimal := Zero,
    iss: Decimal := Zero)

  /** All seven amounts of a breakdown built without arguments are zero. */
  lemma ValoresDefaultToZero()
    ensures var v := ValoresServico();
      v.valorServicos == v.pis == v.cofins == v.csll == v.irrf == v.inss == v.iss == Zero
  {
  }

  // ---------------------------------------------------------------------
  // Invoice record
  // ---------------------------------------------------------------------

  const DefaultDiscriminacao: string := "Servicos conforme NFSe"

  /** The code domain of OptanteSimplesNacional and IncentivadorCultural:
      "1" for yes, "2" for no. */
  const SimNao: set<string> := {"1", "2"}

  datatype NFSeData = NFSeData(
    numero: string,
    codigoVerificacao: string,
    dataEmissao: ValidDateTime,
    valores: ValoresServico,
    prestador: Prestador,
    discriminacao: string := DefaultDiscriminacao,
    naturezaOperacao: string := "1",
    optanteSimples: string := "2",
    incentivadorCultural: string := "2",
    serieRps: string := "U",
    tipoRps: string := "1")
  {
    /** The accounting period, strftime("%Y-%m-%d") of the issuance time. */
    function Competencia(): (s: string)
      ensures |s| == 10 && s[4] == '-' && s[7] == '-'
    {
      FourDigits(dataEmissao.year) + "-" + TwoDigits(dataEmissao.month) + "-" + TwoDigits(dataEmissao.day)
    }

    /** The ISO-8601 issuance time, strftime("%Y-%m-%dT%H:%M:%S"). */
    function DataIso(): (s: string)
      ensures |s| == 19 && s[10] == 'T' && s[13] == ':' && s[16] == ':'
    {
      Competencia() + "T" + TwoDigits(dataEmissao.hour) + ":" + TwoDigits(dataEmissao.minute) + ":" + TwoDigits(dataEmissao.second)
    }
  }

  /** The accounting period reads back as the issuance date: four digits of
      year, a dash, two of month, a dash, two of day. */
  lemma CompetenciaReadsBack(r: NFSeData)
    ensures var s := r.Competencia();
      && IsDigits(s[..4]) && DigitsValue(s[..4]) == r.dataEmissao.year
      && IsDigits(s[5..7]) && DigitsValue(s[5..7]) == r.dataEmissao.month
      && IsDigits(s[8..]) && DigitsValue(s[8..]) == r.dataEmissao.day
  {
    var t := r.dataEmissao;
    var y, m, d := FourDigits(t.year), TwoDigits(t.month), TwoDigits(t.day);
    FourDigitsValue(t.year);
    TwoDigitsValue(t.month);
    TwoDigitsValue(t.day);
    var s := y + "-" + m + "-" + d;
    assert r.Competencia() == s;
    assert s[..4] == y && s[5..7] == m && s[8..] == d;
  }

  /** The ISO timestamp starts with the accounting period, and its time of
      day reads back as the issuance hour, minute and second. */
  lemma DataIsoReadsBack(r: NFSeData)
    ensures var s := r.DataIso();
      && s[..10] == r.Competencia()
      && IsDigits(s[11..13]) && DigitsValue(s[11..13]) == r.dataEmissao.hour
      && IsDigits(s[14..16]) && DigitsValue(s[14..16]) == r.dataEmissao.minute
      && IsDigits(s[17..]) && DigitsValue(s[17..]) == r.dataEmissao.second
  {
    var t := r.dataEmissao;
    var c, h, m, sec := r.Competencia(), TwoDigits(t.hour), TwoDigits(t.minute), TwoDigits(t.second);
    TwoDigitsValue(t.hour);
    TwoDigitsValue(t.minute);
    TwoDigitsValue(t.second);
    var s := c + "T" + h + ":" + m + ":" + sec;
    assert r.DataIso() == s;
    assert s[..10] == c;
    assert s[11..13] == h && s[14..16] == m && s[17..] == sec;
  }

  /** A record built from the five extracted values alone takes the fixed
      descriptive defaults, and its two yes/no codes lie in their domain. */
  lemma RecordDefaults(numero: string, codigo: string, t: ValidDateTime, v: ValoresServico, p: Prestador)
    ensures var r := NFSeData(numero, codigo, t, v, p);
      && r.discriminacao == "Servicos conforme NFSe"
      && r.naturezaOperacao == "1"
      && r.optanteSimples == "2" && r.optanteSimples in SimNao
      && r.incentivadorCultural == "2" && r.incentivadorCultural in SimNao
      && r.serieRps == "U"
      && r.tipoRps == "1"
  {
  }

  /** The two derived strings are fully determined by the issuance time:
      writing a date-time and reading its digits back gives the date-time. */
  lemma DerivedStringsDetermineTime(a: NFSeData, b: NFSeData)
    requires a.DataIso() == b.DataIso()
    ensures a.dataEmissao == b.dataEmissao
    ensures a.Competencia() == b.Competencia()
  {
    DataIsoReadsBack(a);
    DataIsoReadsBack(b);
    CompetenciaReadsBack(a);
    CompetenciaReadsBack(b);
  }
}

=== FILE: parser.dfy ===
/** Field extraction (services/parser.py): every regular expression of
    ServimaxParser written as a scanner that says what the pattern captures
    at one start position, combined with the leftmost search of
    `re.search`, and the conversions that turn the captured text into an
    amount or a timestamp. */
module Parser {
  import opened Wrappers
  import opened Text
  import opened Decimals
  import opened Nfse

  /** The two ValueErrors the parser lets escape. */
  datatype ParseError =
    | InvalidAmount(literal: string)    // float() refused the converted amount
    | InvalidTimestamp(stamp: string)   // strptime refused the date-time pair

  // ---------------------------------------------------------------------
  // Labels (all matched under re.IGNORECASE)
  // ---------------------------------------------------------------------

  const NfseLabel: Label := Lit("NFSe")
  /** C[oó]digo de Verifica[cç][aã]o */
  const CodigoLabel: Label := Lit("C") + ["o\U{F3}"] + Lit("digo de Verifica") + ["c\U{E7}", "a\U{E3}"] + Lit("o")
  const CurrencyLabel: Label := Lit("R$")
  const ValorLabel: Label := Lit("Valor")
  const DeLabel: Label := Lit("de")
  const DosLabel: Label := Lit("dos")
  const ServiLabel: Label := Lit("Servi")
  const OsLabel: Label := Lit("os")
  const PisLabel: Label := Lit("PIS")
  const CofinsLabel: Label := Lit("COFINS")
  const CsllLabel: Label := Lit("CSLL")
  const IrrfLabel: Label := Lit("IRRF")
  const InssLabel: Label := Lit("INSS")
  const ValorIssLabel: Label := Lit("Valor ISS")

  // ---------------------------------------------------------------------
  // Invoice number and verification code
  // ---------------------------------------------------------------------

  /** `NFSe\s*(\d+)` at `p`. */
  function NumeroAt(s: string, p: nat): (g: Option<string>)
    ensures g.Some? ==> LabelAt(s, p, NfseLabel) && |g.value| >= 1 && IsDigits(g.value)
    ensures !LabelAt(s, p, NfseLabel) ==> g.None?
  {
    if !LabelAt(s, p, NfseLabel) then None
    else
      var k := RunEnd(s, p + |NfseLabel|, Space);
      var e := RunEnd(s, k, Digit);
      if e == k then None else Some(s[k..e])
  }

  /** `C[oó]digo de Verifica[cç][aã]o\s*([\w\d]+)` at `p`. */
  function CodigoAt(s: string, p: nat): (g: Option<string>)
    ensures g.Some? ==> LabelAt(s, p, CodigoLabel) && |g.value| >= 1
    ensures g.Some? ==> forall i :: 0 <= i < |g.value| ==> IsWordChar(g.value[i])
    ensures !LabelAt(s, p, CodigoLabel) ==> g.None?
  {
    if !LabelAt(s, p, CodigoLabel) then None
    else
      var k := RunEnd(s, p + |CodigoLabel|, Space);
      var e := RunEnd(s, k, Word);
      if e == k then None else Some(s[k..e])
  }

  /** Where the label is at `p`, blanks run from its end up to `k` and
      digits from `k` up to `e`: the pattern matches exactly when that digit
      run is non-empty, and then captures all of it. */
  lemma NumeroFound(s: string, p: nat, k: nat, e: nat)
    requires LabelAt(s, p, NfseLabel)
    requires IsRun(s, p + |NfseLabel|, k, Space) && IsRun(s, k, e, Digit)
    ensures NumeroAt(s, p) == if k < e then Some(s[k..e]) else None
  {
    RunEndUnique(s, p + |NfseLabel|, k, Space);
    RunEndUnique(s, k, e, Digit);
  }

  /** Where the label is at `p`, blanks run from its end up to `k` and word
      characters from `k` up to `e`: the pattern matches exactly when that
      word run is non-empty, and then captures all of it. */
  lemma CodigoFound(s: string, p: nat, k: nat, e: nat)
    requires LabelAt(s, p, CodigoLabel)
    requires IsRun(s, p + |CodigoLabel|, k, Space) && IsRun(s, k, e, Word)
    ensures CodigoAt(s, p) == if k < e then Some(s[k..e]) else None
  {
    RunEndUnique(s, p + |CodigoLabel|, k, Space);
    RunEndUnique(s, k, e, Word);
  }

  /** `_search(r"NFSe\s*(\d+)", content, fallback="0")`: a digit string, "0"
      when the pattern matches nowhere. */
  function ExtractNumero(s: string): (r: string)
    ensures |r| >= 1 && IsDigits(r)
    ensures (forall p :: 0 <= p <= |s| ==> NumeroAt(s, p).None?) ==> r == "0"
  {
    match Search(s, p => NumeroAt(s, p), 0)
    case None => "0"
    case Some(m) => m.1
  }

  /** The invoice number is the digit run after the leftmost `NFSe` that has
      optional blanks and a digit after it. */
  lemma NumeroIsLeftmost(s: string, p: nat)
    requires NumeroAt(s, p).Some?
    requires forall q :: 0 <= q < p ==> NumeroAt(s, q).None?
    ensures ExtractNumero(s) == NumeroAt(s, p).value
  {
    var at := (q: nat) => NumeroAt(s, q);
    assert p <= |s| by {
      assert LabelAt(s, p, NfseLabel);
    }
    SearchFindsLeftmost(s, at, 0, p);
  }

  /** `_search(<verification-code pattern>, content, fallback="XXXXXX")`: a
      non-empty run of word characters, "XXXXXX" when nothing matches. */
  function ExtractCodigo(s: string): (r: string)
    ensures |r| >= 1 && forall i :: 0 <= i < |r| ==> IsWordChar(r[i])
    ensures (forall p :: 0 <= p <= |s| ==> CodigoAt(s, p).None?) ==> r == "XXXXXX"
  {
    match Search(s, p => CodigoAt(s, p), 0)
    case None => "XXXXXX"
    case Some(m) => m.1
  }

  /** The verification code is the word run after the leftmost matching
      verification-code label. */
  lemma CodigoIsLeftmost(s: string, p: nat)
    requires CodigoAt(s, p).Some?
    requires forall q :: 0 <= q < p ==> CodigoAt(s, q).None?
    ensures ExtractCodigo(s) == CodigoAt(s, p).value
  {
    var at := (q: nat) => CodigoAt(s, q);
    assert p <= |s| by {
      assert LabelAt(s, p, CodigoLabel);
    }
    SearchFindsLeftmost(s, at, 0, p);
  }

  // ---------------------------------------------------------------------
  // Amounts
  // ---------------------------------------------------------------------

  /** What `([\d\.,]+)` can capture: a non-empty run of digits, points and commas. */
  predicate IsAmountToken(t: string) {
    |t| >= 1 && forall i :: 0 <= i < |t| ==> IsAmountChar(t[i])
  }

  /** `([\d\.,]+)` at `r`: the longest run of amount characters there. */
  function AmountAt(s: string, r: nat): (g: Option<string>)
    ensures g.Some? <==> r < |s| && IsAmountChar(s[r])
    ensures g.Some? ==> IsAmountToken(g.value)
    ensures g.Some? ==> r < |s| && r + |g.value| <= |s| && s[r..r + |g.value|] == g.value
    ensures g.Some? ==> r + |g.value| == |s| || !IsAmountChar(s[r + |g.value|])
  {
    if r < |s| && IsAmountChar(s[r]) then Some(s[r..RunEnd(s, r, AmountChar)]) else None
  }

  /** `R\$[: ]*([\d\.,]+)` at `r`. The greedy `[: ]*` never needs to give
      anything back: a colon or blank is not an amount character. */
  function CurrencyAmountAt(s: string, r: nat): (g: Option<string>)
    ensures g.Some? ==> LabelAt(s, r, CurrencyLabel) && IsAmountToken(g.value)
    ensures !LabelAt(s, r, CurrencyLabel) ==> g.None?
  {
    if LabelAt(s, r, CurrencyLabel) then AmountAt(s, RunEnd(s, r + 2, ColonOrBlank)) else None
  }

  /** Where `R$` is at `r`, colons and blanks run from its end up to `k` and
      amount characters from `k` up to `e`: the pattern matches exactly when
      that amount run is non-empty, and then captures all of it. */
  lemma CurrencyFound(s: string, r: nat, k: nat, e: nat)
    requires LabelAt(s, r, CurrencyLabel)
    requires IsRun(s, r + |CurrencyLabel|, k, ColonOrBlank) && IsRun(s, k, e, AmountChar)
    ensures CurrencyAmountAt(s, r) == if k < e then Some(s[k..e]) else None
  {
    RunEndUnique(s, r + |CurrencyLabel|, k, ColonOrBlank);
    RunEndUnique(s, k, e, AmountChar);
  }

  /** `LABEL.*?R\$[: ]*([\d\.,]+)` (IGNORECASE, DOTALL) at `p`: after the
      label, the lazy `.*?` tries every later currency marker in order. */
  function TaxAt(s: string, lab: Label, p: nat): (g: Option<string>)
    ensures g.Some? ==> LabelAt(s, p, lab) && IsAmountToken(g.value)
    ensures g.None? <==>
      !LabelAt(s, p, lab) || forall r :: p + |lab| <= r <= |s| ==> CurrencyAmountAt(s, r).None?
  {
    if !LabelAt(s, p, lab) then None
    else
      CurrencySearch(s, p + |lab|);
      Captured(Search(s, CurrencyScanner(s), p + |lab|))
  }

  /** `R\$[: ]*([\d\.,]+)` as a scanner over the start positions of `s`. */
  function CurrencyScanner(s: string): nat -> Option<string> {
    (r: nat) => CurrencyAmountAt(s, r)
  }

  /** The search for a currency amount from `i` fails exactly when no
      position from `i` on has one. */
  lemma CurrencySearch(s: string, i: nat)
    ensures Search(s, CurrencyScanner(s), i).None? <==>
      forall r :: i <= r <= |s| ==> CurrencyAmountAt(s, r).None?
  {
    var at := CurrencyScanner(s);
    var m := Search(s, at, i);
    if m.Some? {
      assert at(m.value.0).Some?;
    } else {
      forall r | i <= r <= |s| ensures CurrencyAmountAt(s, r).None? {
        assert at(r).None?;
      }
    }
  }

  /** The lazy `.*?` stops at the first currency marker after the label
      that has an amount after it: that marker's amount is the capture. */
  lemma TaxFound(s: string, lab: Label, p: nat, r: nat)
    requires LabelAt(s, p, lab) && p + |lab| <= r <= |s|
    requires CurrencyAmountAt(s, r).Some?
    requires forall q :: p + |lab| <= q < r ==> CurrencyAmountAt(s, q).None?
    ensures TaxAt(s, lab, p) == CurrencyAmountAt(s, r)
  {
    var at := CurrencyScanner(s);
    var m := Search(s, at, p + |lab|);
    assert at(r).Some?;
    assert m.Some?;
    assert at(m.value.0).Some?;
    assert m.value.0 == r;
  }

  /** `Valor\s*(?:de|dos)\s*Servi` at `p`: where the `\S*os` part begins. The
      two alternatives differ in their second letter, so at most one of
      them matches and the alternation never backtracks. */
  function ServiEnd(s: string, p: nat): (d: Option<nat>)
    ensures d.Some? ==> LabelAt(s, p, ValorLabel) && p + |ValorLabel| + |ServiLabel| <= d.value <= |s|
    ensures d.Some? ==> ServiEndsAt(s, d.value)
    ensures !LabelAt(s, p, ValorLabel) ==> d.None?
  {
    if LabelAt(s, p, ValorLabel) then DeDosServi(s, RunEnd(s, p + |ValorLabel|, Space)) else None
  }

  /** A `Servi` label ends just before `e`. */
  predicate ServiEndsAt(s: string, e: nat) {
    |ServiLabel| <= e && LabelAt(s, e - |ServiLabel|, ServiLabel)
  }

  /** `(?:de|dos)\s*Servi` at `a`. */
  function DeDosServi(s: string, a: nat): (d: Option<nat>)
    requires a <= |s|
    ensures d.Some? ==> LabelAt(s, a, DeLabel) || LabelAt(s, a, DosLabel)
    ensures !LabelAt(s, a, DeLabel) && !LabelAt(s, a, DosLabel) ==> d.None?
    ensures d.Some? ==> a + |DeLabel| + |ServiLabel| <= d.value <= |s|
    ensures d.Some? ==> ServiEndsAt(s, d.value)
  {
    if LabelAt(s, a, DeLabel) then ServiAfter(s, a + |DeLabel|)
    else if LabelAt(s, a, DosLabel) then ServiAfter(s, a + |DosLabel|)
    else None
  }

  function ServiAfter(s: string, b: nat): (d: Option<nat>)
    requires b <= |s|
    ensures d.Some? ==> b + |ServiLabel| <= d.value <= |s|
    ensures d.Some? ==> ServiEndsAt(s, d.value)
    ensures d.Some? ==> forall k :: b <= k < d.value - |ServiLabel| ==> IsSpace(s[k])
  {
    var c := RunEnd(s, b, Space);
    if LabelAt(s, c, ServiLabel) then Some(c + |ServiLabel|) else None
  }

  /** Where blanks run from `b` up to `c`, `\s*Servi` matches exactly when
      `Servi` is at `c`, and ends after it. */
  lemma ServiAfterFound(s: string, b: nat, c: nat)
    requires IsRun(s, b, c, Space)
    ensures ServiAfter(s, b) == if LabelAt(s, c, ServiLabel) then Some(c + |ServiLabel|) else None
  {
    RunEndUnique(s, b, c, Space);
  }

  /** Where `Valor` is at `p` and blanks run from its end up to `a`: with
      `de` at `a` the match goes on after `de`, with `dos` after `dos`, and
      with neither there is no match. */
  lemma ServiEndCases(s: string, p: nat, a: nat)
    requires LabelAt(s, p, ValorLabel) && IsRun(s, p + |ValorLabel|, a, Space)
    ensures LabelAt(s, a, DeLabel) ==> ServiEnd(s, p) == ServiAfter(s, a + |DeLabel|)
    ensures LabelAt(s, a, DosLabel) ==> ServiEnd(s, p) == ServiAfter(s, a + |DosLabel|)
    ensures !LabelAt(s, a, DeLabel) && !LabelAt(s, a, DosLabel) ==> ServiEnd(s, p).None?
  {
    RunEndUnique(s, p + |ValorLabel|, a, Space);
    assert ServiEnd(s, p) == DeDosServi(s, a);
    DeDosExclusive(s, a);
  }

  /** Where `de` stands, the head goes on after `de`; where `dos` stands,
      after `dos`. */
  lemma DeDosServiCases(s: string, a: nat)
    requires a <= |s|
    ensures LabelAt(s, a, DeLabel) ==> DeDosServi(s, a) == ServiAfter(s, a + |DeLabel|)
    ensures LabelAt(s, a, DosLabel) ==> DeDosServi(s, a) == ServiAfter(s, a + |DosLabel|)
  {
    DeDosExclusive(s, a);
  }

  /** `de` and `dos` differ in their second letter: at most one is at `a`. */
  lemma DeDosExclusive(s: string, a: nat)
    ensures !(LabelAt(s, a, DeLabel) && LabelAt(s, a, DosLabel))
  {
    if LabelAt(s, a, DosLabel) {
      assert Accepts(DosLabel[1], s[a + 1]) && DosLabel[1] == "o";
      LiteralNotAt(s, a, "de", 1);
    }
  }

  /** `os\s*R\$[: ]*.*?([\d\.,]+)` at `x`: after the currency marker, the
      first amount character anywhere later starts the capture. */
  function OsTail(s: string, x: nat): (g: Option<string>)
    ensures g.Some? ==> LabelAt(s, x, OsLabel) && IsAmountToken(g.value)
    ensures !LabelAt(s, x, OsLabel) ==> g.None?
  {
    if !LabelAt(s, x, OsLabel) then None else CurrencyTail(s, RunEnd(s, x + |OsLabel|, Space))
  }

  /** `R\$[: ]*.*?([\d\.,]+)` at `y`. */
  function CurrencyTail(s: string, y: nat): (g: Option<string>)
    ensures g.Some? ==> LabelAt(s, y, CurrencyLabel) && IsAmountToken(g.value)
    ensures !LabelAt(s, y, CurrencyLabel) ==> g.None?
  {
    if !LabelAt(s, y, CurrencyLabel) then None else FirstAmountFrom(s, RunEnd(s, y + |CurrencyLabel|, ColonOrBlank))
  }

  /** `.*?([\d\.,]+)` at `z`: the amount run at the first amount character
      from `z` on. */
  function FirstAmountFrom(s: string, z: nat): (g: Option<string>)
    ensures g.Some? ==> IsAmountToken(g.value)
  {
    var m := Search(s, AmountScanner(s), z);
    assert m.Some? ==> AmountAt(s, m.value.0) == Some(m.value.1);
    Captured(m)
  }

  /** `([\d\.,]+)` as a scanner over the start positions of `s`. */
  function AmountScanner(s: string): nat -> Option<string> {
    (r: nat) => AmountAt(s, r)
  }

  /** Where `os` is at `x`, blanks run up to `R$` at `y`, and colons and
      blanks run from there up to `z`: the capture is the amount run that
      starts at the first amount character `r` from `z` on, and there is no
      match when the text has none (`r` is then the end of the text). */
  lemma OsTailFound(s: string, x: nat, y: nat, z: nat, r: nat)
    requires LabelAt(s, x, OsLabel) && IsRun(s, x + |OsLabel|, y, Space)
    requires LabelAt(s, y, CurrencyLabel) && IsRun(s, y + |CurrencyLabel|, z, ColonOrBlank)
    requires z <= r <= |s| && forall q :: z <= q < r ==> !IsAmountChar(s[q])
    requires r == |s| || IsAmountChar(s[r])
    ensures OsTail(s, x) == AmountAt(s, r)
  {
    OsTailAt(s, x, y);
    CurrencyTailAt(s, y, z);
    FirstAmount(s, z, r);
  }

  lemma OsTailAt(s: string, x: nat, y: nat)
    requires LabelAt(s, x, OsLabel) && IsRun(s, x + |OsLabel|, y, Space)
    ensures OsTail(s, x) == CurrencyTail(s, y)
  {
    RunEndUnique(s, x + |OsLabel|, y, Space);
  }

  lemma CurrencyTailAt(s: string, y: nat, z: nat)
    requires LabelAt(s, y, CurrencyLabel) && IsRun(s, y + |CurrencyLabel|, z, ColonOrBlank)
    ensures CurrencyTail(s, y) == FirstAmountFrom(s, z)
  {
    RunEndUnique(s, y + |CurrencyLabel|, z, ColonOrBlank);
  }

  /** The lazy `.*?([\d\.,]+)` from `z`: the capture starts at the first
      amount character `r` from `z` on. */
  lemma FirstAmount(s: string, z: nat, r: nat)
    requires z <= r <= |s| && forall q :: z <= q < r ==> !IsAmountChar(s[q])
    requires r == |s| || IsAmountChar(s[r])
    ensures FirstAmountFrom(s, z) == AmountAt(s, r)
  {
    var at := AmountScanner(s);
    assert forall q :: at(q) == AmountAt(s, q);
    if r < |s| {
      SearchFindsLeftmost(s, at, z, r);
    } else {
      SearchMisses(s, at, z);
    }
  }

  /** The `os\s*R\$[: ]*.*?([\d\.,]+)` tail as a scanner over the split
      points of `s`. */
  function OsScanner(s: string): nat -> Option<string> {
    (x: nat) => OsTail(s, x)
  }

  /** The greedy `\S*` of `Servi\S*os`: it first takes the whole run of
      non-blank characters from `d` and then gives characters back one at a
      time, so the split points `x` are tried from the longest down to `d`. */
  function GreedyServicos(s: string, d: nat, x: nat): (g: Option<string>)
    requires d <= x
    ensures g.Some? ==> IsAmountToken(g.value)
  {
    var m := SearchBack(OsScanner(s), d, x);
    assert m.Some? ==> OsTail(s, m.value.0) == Some(m.value.1);
    Captured(m)
  }

  /** VALOR_SERVICO_PATTERN at `p`. */
  function ValorServicoAt(s: string, p: nat): (g: Option<string>)
    ensures g.Some? ==> LabelAt(s, p, ValorLabel) && IsAmountToken(g.value)
    ensures ServiEnd(s, p).None? ==> g.None?
  {
    match ServiEnd(s, p)
    case None => None
    case Some(d) => GreedyServicos(s, d, RunEnd(s, d, NonSpace))
  }

  /** Where `Valor ... Servi` ends at `d` and non-blanks run from `d` up to
      `n`: the pattern matches exactly when the `os` tail matches at some
      split point in between, and then captures the tail at the largest. */
  lemma ValorServicoFound(s: string, p: nat, d: nat, n: nat, y: nat)
    requires ServiEnd(s, p) == Some(d) && IsRun(s, d, n, NonSpace) && d <= y <= n
    ensures ValorServicoAt(s, p).None? <==> forall z :: d <= z <= n ==> OsTail(s, z).None?
    ensures OsTail(s, y).Some? && (forall z :: y < z <= n ==> OsTail(s, z).None?) ==>
      ValorServicoAt(s, p) == OsTail(s, y)
  {
    RunEndUnique(s, d, n, NonSpace);
    assert ValorServicoAt(s, p) == GreedyServicos(s, d, n);
    GreedyCases(s, d, n, y);
  }

  lemma GreedyCases(s: string, d: nat, n: nat, y: nat)
    requires d <= y <= n
    ensures GreedyServicos(s, d, n).None? <==> forall z :: d <= z <= n ==> OsTail(s, z).None?
    ensures OsTail(s, y).Some? && (forall z :: y < z <= n ==> OsTail(s, z).None?) ==>
      GreedyServicos(s, d, n) == OsTail(s, y)
  {
    var at := OsScanner(s);
    SearchBackCases(at, d, n, y);
    assert forall z :: at(z) == OsTail(s, z);
  }

  /** Python's `str.strip()`: drop blanks at both ends. */
  function Strip(s: string): (r: string)
    ensures (|s| >= 1 && !IsSpace(s[0]) && !IsSpace(s[|s| - 1])) ==> r == s
  {
    var i := RunEnd(s, 0, Space);
    var j := TrimEnd(s, |s|);
    if j <= i then "" else s[i..j]
  }

  /** The end of `s[..j]` once its trailing blanks are dropped. */
  function TrimEnd(s: string, j: nat): (e: nat)
    requires j <= |s|
    ensures e <= j
    ensures forall k :: e <= k < j ==> IsSpace(s[k])
    ensures e == 0 || !IsSpace(s[e - 1])
  {
    if j > 0 && IsSpace(s[j - 1]) then TrimEnd(s, j - 1) else j
  }

  /** `value.replace(".", "").replace(",", ".")`: thousands points vanish and
      the decimal comma becomes a point. */
  function ToFloatLiteral(t: string): (r: string)
    ensures |r| == |t| - CountChar(t, '.')
    ensures CountChar(r, '.') == CountChar(t, ',')
    ensures forall i :: 0 <= i < |r| ==> r[i] != ','
  {
    if t == [] then []
    else
      var rest := ToFloatLiteral(t[1..]);
      if t[0] == '.' then rest
      else
        var c := if t[0] == ',' then '.' else t[0];
        assert ([c] + rest)[1..] == rest;
        [c] + rest
  }

  /** What the replacement keeps: the digits, in order; one point per comma;
      and, after the first point, the digits that followed the first comma. */
  lemma {:induction false} FloatLiteralOfToken(t: string)
    requires forall i :: 0 <= i < |t| ==> IsAmountChar(t[i])
    ensures IsPlainLiteral(ToFloatLiteral(t))
    ensures CountChar(ToFloatLiteral(t), '.') == CountChar(t, ',')
    ensures DigitsOf(ToFloatLiteral(t)) == DigitsOf(t)
    ensures DigitsOf(AfterFirst(ToFloatLiteral(t), '.')) == DigitsOf(AfterFirst(t, ','))
    decreases |t|
  {
    if t != [] {
      var rest := ToFloatLiteral(t[1..]);
      FloatLiteralOfToken(t[1..]);
      if t[0] == '.' {
        assert ToFloatLiteral(t) == rest;
      } else if t[0] == ',' {
        assert ToFloatLiteral(t) == ['.'] + rest;
        assert (['.'] + rest)[1..] == rest;
      } else {
        assert ToFloatLiteral(t) == [t[0]] + rest;
        assert ([t[0]] + rest)[1..] == rest;
      }
    }
  }

  /** `_match_to_float`: no match gives 0.0; otherwise the captured text is
      converted Brazilian-style and read by `float()`. Under this contract a
      match is an amount token, and the value it yields takes all its digits
      as units and the digits after its comma as the fractional places:
      `1.234,56` is 1234.56 and `1.234` is 1234, a point never being a
      decimal point. More than one comma, or no digit at all, raises. */
  function MatchToAmount(m: Option<string>): (r: Result<Decimal, ParseError>)
    requires m.Some? ==> IsAmountToken(m.value)
    ensures m.None? ==> r == Ok(Zero)
    ensures m.Some? ==> (r.Ok? <==> CountChar(m.value, ',') <= 1 && DigitsOf(m.value) != "")
    ensures m.Some? && r.Ok? ==>
      r.value == Decimal(DigitsValue(DigitsOf(m.value)), |DigitsOf(AfterFirst(m.value, ','))|)
    ensures m.Some? && r.Err? ==> r.error == InvalidAmount(ToFloatLiteral(m.value))
  {
    match m
    case None => Ok(Zero)
    case Some(g) =>
      var v := Strip(g);
      if v == "" then Ok(Zero)
      else
        FloatLiteralOfToken(v);
        var lit := ToFloatLiteral(v);
        match DecimalLiteral(lit)
        case None => Err(InvalidAmount(lit))
        case Some(d) => Ok(d)
  }

  /** A character absent from `s` is counted zero times and has nothing after it. */
  lemma {:induction false} AbsentChar(s: string, c: char)
    requires forall i :: 0 <= i < |s| ==> s[i] != c
    ensures CountChar(s, c) == 0 && AfterFirst(s, c) == ""
    decreases |s|
  {
    if s != [] {
      AbsentChar(s[1..], c);
    }
  }

  /** Splitting at the first comma. */
  lemma {:induction false} CommaParts(ip: string, fp: string)
    requires forall i :: 0 <= i < |ip| ==> ip[i] != ','
    ensures CountChar(ip + "," + fp, ',') == 1 + CountChar(fp, ',')
    ensures AfterFirst(ip + "," + fp, ',') == fp
    decreases |ip|
  {
    if ip == [] {
      assert ip + "," + fp == [','] + fp && ([','] + fp)[1..] == fp;
    } else {
      assert (ip + "," + fp)[1..] == ip[1..] + "," + fp;
      CommaParts(ip[1..], fp);
    }
  }

  /** A Brazilian amount with a decimal comma, such as 1.234,56: the points
      before the comma are thousands separators and vanish, and the digits
      after the comma are the fractional places, so 1.234,56 is 1234.56. */
  lemma BrazilianAmount(ip: string, fp: string)
    requires forall i :: 0 <= i < |ip| ==> IsDigit(ip[i]) || ip[i] == '.'
    requires DigitsOf(ip) != "" && IsDigits(fp)
    ensures IsAmountToken(ip + "," + fp)
    ensures MatchToAmount(Some(ip + "," + fp)) == Ok(Decimal(DigitsValue(DigitsOf(ip) + fp), |fp|))
  {
    var t := ip + "," + fp;
    CommaTokenParts(ip, fp);
    CommaParts(ip, fp);
    AbsentChar(fp, ',');
    DigitsOfDigits(fp);
    var r := MatchToAmount(Some(t));
    assert r.Ok?;
    assert r.value == Decimal(DigitsValue(DigitsOf(t)), |DigitsOf(AfterFirst(t, ','))|);
  }

  lemma CommaTokenParts(ip: string, fp: string)
    requires forall i :: 0 <= i < |ip| ==> IsDigit(ip[i]) || ip[i] == '.'
    requires IsDigits(fp)
    ensures IsAmountToken(ip + "," + fp)
    ensures DigitsOf(ip + "," + fp) == DigitsOf(ip) + fp
  {
    CommaTokenChars(ip, fp);
    assert DigitsOf(",") == "" by {
      assert ","[1..] == "";
    }
    DigitsOfAppend(ip, ",");
    DigitsOfAppend(ip + ",", fp);
    DigitsOfDigits(fp);
  }

  /** An amount without a comma is a whole number however many points it
      has: 1.234 is 1234, never 1.234. */
  lemma WholeAmount(ip: string)
    requires forall i :: 0 <= i < |ip| ==> IsDigit(ip[i]) || ip[i] == '.'
    requires DigitsOf(ip) != ""
    ensures MatchToAmount(Some(ip)) == Ok(Decimal(DigitsValue(DigitsOf(ip)), 0))
  {
    AbsentChar(ip, ',');
    assert AfterFirst(ip, ',') == "" && DigitsOf("") == "";
  }

  lemma CommaTokenChars(ip: string, fp: string)
    requires forall i :: 0 <= i < |ip| ==> IsDigit(ip[i]) || ip[i] == '.'
    requires IsDigits(fp)
    ensures IsAmountToken(ip + "," + fp)
  {
    var t := ip + "," + fp;
    forall i | 0 <= i < |t| ensures IsAmountChar(t[i]) {
      if i > |ip| {
        assert t[i] == fp[i - |ip| - 1];
      }
    }
  }

  /** Two commas make the converted literal unreadable, which raises. */
  lemma TwoCommasRejected(a: string, b: string, c: string)
    requires IsAmountToken(a + "," + b + "," + c)
    requires forall i :: 0 <= i < |a| ==> a[i] != ','
    requires forall i :: 0 <= i < |b| ==> b[i] != ','
    ensures MatchToAmount(Some(a + "," + b + "," + c)).Err?
  {
    CommaParts(a, b + "," + c);
    assert a + "," + b + "," + c == a + "," + (b + "," + c);
    CommaParts(b, c);
  }

  /** `_extract_valor_servico`: the gross service value, 0 when the pattern
      matches nowhere. */
  function ExtractValorServico(s: string): (r: Result<Decimal, ParseError>)
    ensures (forall p :: 0 <= p <= |s| ==> ValorServicoAt(s, p).None?) ==> r == Ok(Zero)
    ensures (forall p :: 0 <= p <= |s| ==> !LabelAt(s, p, ValorLabel)) ==> r == Ok(Zero)
  {
    MatchToAmount(Captured(Search(s, p => ValorServicoAt(s, p), 0)))
  }

  /** `_extract_imposto`: the amount after the leftmost occurrence of the tax
      label that has a currency marker and an amount somewhere after it; 0
      when no occurrence has one, in particular when the label occurs
      nowhere. */
  function ExtractImposto(lab: Label, s: string): (r: Result<Decimal, ParseError>)
    ensures (forall p :: 0 <= p <= |s| ==> TaxAt(s, lab, p).None?) ==> r == Ok(Zero)
    ensures (forall p :: 0 <= p <= |s| ==> !LabelAt(s, p, lab)) ==> r == Ok(Zero)
  {
    MatchToAmount(Captured(Search(s, p => TaxAt(s, lab, p), 0)))
  }

  /** Otherwise the gross service value is read from the leftmost position
      at which the whole service-value pattern matches. */
  lemma ValorServicoIsLeftmost(s: string, p: nat)
    requires ValorServicoAt(s, p).Some?
    requires forall q :: 0 <= q < p ==> ValorServicoAt(s, q).None?
    ensures ExtractValorServico(s) == MatchToAmount(ValorServicoAt(s, p))
  {
    var at := (q: nat) => ValorServicoAt(s, q);
    assert p <= |s| by {
      assert LabelAt(s, p, ValorLabel);
    }
    SearchFindsLeftmost(s, at, 0, p);
  }

  /** Otherwise a tax amount is read from the leftmost label occurrence
      that has a currency marker and an amount somewhere after it; an
      earlier occurrence without one is passed over. */
  lemma ImpostoIsLeftmost(lab: Label, s: string, p: nat)
    requires TaxAt(s, lab, p).Some?
    requires forall q :: 0 <= q < p ==> TaxAt(s, lab, q).None?
    ensures ExtractImposto(lab, s) == MatchToAmount(TaxAt(s, lab, p))
  {
    var at := (q: nat) => TaxAt(s, lab, q);
    assert p <= |s| by {
      assert LabelAt(s, p, lab);
    }
    SearchFindsLeftmost(s, at, 0, p);
  }

  // ---------------------------------------------------------------------
  // Issuance timestamp
  // ---------------------------------------------------------------------

  /** `shape` occurs at `p`, each `d` of it standing for an ASCII digit. */
  predicate ShapeAt(s: string, p: nat, shape: string) {
    p + |shape| <= |s| &&
    forall k :: 0 <= k < |shape| ==> if shape[k] == 'd' then IsDigit(s[p + k]) else s[p + k] == shape[k]
  }

  const DateShape: string := "dd/dd/dddd"
  const TimeShape: string := "dd:dd:dd"
  const StampShape: string := "dd/dd/dddd dd:dd:dd"

  /** `(\d{2}/\d{2}/\d{4})\s*(\d{2}:\d{2}:\d{2})` at `p`. */
  function DateTimeAt(s: string, p: nat): (g: Option<(string, string)>)
    ensures g.Some? ==> ShapeAt(g.value.0 + " " + g.value.1, 0, StampShape)
    ensures !ShapeAt(s, p, DateShape) ==> g.None?
  {
    if !ShapeAt(s, p, DateShape) then None
    else
      var k := RunEnd(s, p + |DateShape|, Space);
      if ShapeAt(s, k, TimeShape) then
        var date, time := s[p..p + |DateShape|], s[k..k + |TimeShape|];
        StampOfParts(s, p, k);
        Some((date, time))
      else None
  }

  /** A date and a time side by side, with one blank between, have the
      shape of a printed stamp. */
  lemma StampOfParts(s: string, p: nat, k: nat)
    requires ShapeAt(s, p, DateShape) && ShapeAt(s, k, TimeShape)
    ensures ShapeAt(s[p..p + |DateShape|] + " " + s[k..k + |TimeShape|], 0, StampShape)
  {
    var date, time := s[p..p + |DateShape|], s[k..k + |TimeShape|];
    var st := date + " " + time;
    forall i | 0 <= i < |StampShape|
      ensures if StampShape[i] == 'd' then IsDigit(st[i]) else st[i] == StampShape[i]
    {
      if i < 10 {
        assert st[i] == s[p + i] && StampShape[i] == DateShape[i];
      } else if i > 10 {
        assert st[i] == s[k + i - 11] && StampShape[i] == TimeShape[i - 11];
      }
    }
  }

  /** Where a `DD/MM/YYYY` date is at `p` and blanks run from its end up to
      `k`: the pattern matches exactly when an `HH:MM:SS` time is at `k`, and
      the two groups are that date and that time, as they stand in the text. */
  lemma DateTimeFound(s: string, p: nat, k: nat)
    requires ShapeAt(s, p, DateShape) && IsRun(s, p + |DateShape|, k, Space)
    ensures DateTimeAt(s, p) ==
      if ShapeAt(s, k, TimeShape) then Some((s[p..p + |DateShape|], s[k..k + |TimeShape|])) else None
  {
    RunEndUnique(s, p + |DateShape|, k, Space);
  }

  lemma StampDigits(st: string)
    requires ShapeAt(st, 0, StampShape)
    ensures IsDigits(st[0..2]) && IsDigits(st[3..5]) && IsDigits(st[6..10])
    ensures IsDigits(st[11..13]) && IsDigits(st[14..16]) && IsDigits(st[17..19])
  {
    forall k | k in {0, 1, 3, 4, 6, 7, 8, 9, 11, 12, 14, 15, 17, 18} ensures IsDigit(st[k]) {
      assert StampShape[k] == 'd';
    }
  }

  /** The fields a `DD/MM/YYYY HH:MM:SS` stamp spells. */
  function StampFields(st: string): DateTime
    requires ShapeAt(st, 0, StampShape)
  {
    StampDigits(st);
    DateTime(
      year := DigitsValue(st[6..10]), month := DigitsValue(st[3..5]), day := DigitsValue(st[0..2]),
      hour := DigitsValue(st[11..13]), minute := DigitsValue(st[14..16]), second := DigitsValue(st[17..19]))
  }

  /** `datetime.strptime(stamp, "%d/%m/%Y %H:%M:%S")` on a stamp of that
      shape: it yields the date-time the digits spell, and raises when they
      do not name a real one (day 00, month 13, 31 February, hour 24,
      second 60, year 0000). */
  function Strptime(st: string): (r: Result<ValidDateTime, ParseError>)
    requires ShapeAt(st, 0, StampShape)
    ensures r.Ok? <==> StampFields(st).Valid()
    ensures r.Ok? ==> r.value == StampFields(st)
    ensures r.Err? ==> r.error == InvalidTimestamp(st)
  {
    var t := StampFields(st);
    if t.Valid() then Ok(t) else Err(InvalidTimestamp(st))
  }

  /** `_parse_data_emissao`, with the clock reading `now` supplied by the
      caller: `now` only when no date followed by optional blanks and a time
      occurs anywhere. */
  function ExtractDataEmissao(s: string, now: ValidDateTime): (r: Result<ValidDateTime, ParseError>)
    ensures (forall p :: 0 <= p <= |s| ==> DateTimeAt(s, p).None?) ==> r == Ok(now)
  {
    match Search(s, p => DateTimeAt(s, p), 0)
    case None => Ok(now)
    case Some(m) => Strptime(m.1.0 + " " + m.1.1)
  }

  /** Otherwise the leftmost date-time pair decides: it is read by strptime,
      and a pair that names no real date-time raises instead of falling back
      to the clock. */
  lemma DataEmissaoIsLeftmost(s: string, now: ValidDateTime, p: nat)
    requires DateTimeAt(s, p).Some?
    requires forall q :: 0 <= q < p ==> DateTimeAt(s, q).None?
    ensures var g := DateTimeAt(s, p).value;
      ExtractDataEmissao(s, now) == Strptime(g.0 + " " + g.1)
    ensures var g := DateTimeAt(s, p).value;
      ExtractDataEmissao(s, now).Err? <==> !StampFields(g.0 + " " + g.1).Valid()
  {
    var at := (q: nat) => DateTimeAt(s, q);
    assert p <= |s| by {
      assert ShapeAt(s, p, DateShape);
    }
    SearchFindsLeftmost(s, at, 0, p);
  }

  // ---------------------------------------------------------------------
  // Whole lines as the invoice prints them
  // ---------------------------------------------------------------------

  /** `NFSe 4521` followed by anything that does not go on with a digit:
      the invoice number is 4521. */
  lemma NumeroLine(ds: string, post: string)
    requires |ds| >= 1 && IsDigits(ds)
    requires post == [] || !IsDigit(post[0])
    ensures ExtractNumero("NFSe " + ds + post) == ds
  {
    var s := "NFSe " + ds + post;
    var e := 5 + |ds|;
    assert s[0..4] == "NFSe" && s[4] == ' ' && s[5..e] == ds;
    LiteralAt(s, 0, "NFSe");
    assert e < |s| ==> s[e] == post[0];
    NumeroFound(s, 0, 5, e);
    NumeroIsLeftmost(s, 0);
  }

  /** The verification-code label as the invoice spells it, accents included. */
  const CodigoText: string := "C\U{F3}digo de Verifica\U{E7}\U{E3}o"

  lemma CodigoTextIsLabel(s: string, p: nat)
    requires p + |CodigoText| <= |s| && s[p..p + |CodigoText|] == CodigoText
    ensures LabelAt(s, p, CodigoLabel)
  {
    assert |CodigoLabel| == |CodigoText|;
    forall k | 0 <= k < |CodigoLabel| ensures Accepts(CodigoLabel[k], s[p + k]) {
      assert s[p + k] == CodigoText[k];
      if k == 1 || k == 18 || k == 19 {
        assert Fold(CodigoLabel[k][1]) == Fold(s[p + k]);
      } else {
        assert Fold(CodigoLabel[k][0]) == Fold(s[p + k]);
      }
    }
  }

  /** `Código de Verificação AB12XZ` followed by anything that does not go
      on with a word character: the verification code is AB12XZ. */
  lemma CodigoLine(code: string, post: string)
    requires |code| >= 1 && forall i :: 0 <= i < |code| ==> IsWordChar(code[i])
    requires post == [] || !IsWordChar(post[0])
    ensures ExtractCodigo(CodigoText + " " + code + post) == code
  {
    var s := CodigoText + " " + code + post;
    var k := |CodigoText| + 1;
    var e := k + |code|;
    assert s[..|CodigoText|] == CodigoText && s[k - 1] == ' ' && s[k..e] == code;
    CodigoTextIsLabel(s, 0);
    assert e < |s| ==> s[e] == post[0];
    CodigoFound(s, 0, k, e);
    CodigoIsLeftmost(s, 0);
  }

  /** The same line after text in which no letter c occurs (so that no
      label can start there): the verification code is still that code. */
  lemma CodigoAfter(pre: string, code: string, post: string)
    requires forall i :: 0 <= i < |pre| ==> Fold(pre[i]) != 'c'
    requires |code| >= 1 && forall i :: 0 <= i < |code| ==> IsWordChar(code[i])
    requires post == [] || !IsWordChar(post[0])
    ensures ExtractCodigo(pre + CodigoText + " " + code + post) == code
  {
    var s := pre + CodigoText + " " + code + post;
    var p := |pre|;
    var k := p + |CodigoText| + 1;
    var e := k + |code|;
    assert s[p..p + |CodigoText|] == CodigoText && s[k - 1] == ' ' && s[k..e] == code;
    CodigoTextIsLabel(s, p);
    assert e < |s| ==> s[e] == post[0];
    CodigoFound(s, p, k, e);
    forall q | 0 <= q < p ensures CodigoAt(s, q).None? {
      assert s[q] == pre[q] && CodigoLabel[0] == "C";
    }
    CodigoIsLeftmost(s, p);
  }

  /** A tax line, `<label> R$ <amount>`: the tax is read from that amount. */
  lemma ImpostoLine(w: string, t: string)
    requires IsAmountToken(t)
    ensures ExtractImposto(Lit(w), w + " R$ " + t) == MatchToAmount(Some(t))
  {
    var s := w + " R$ " + t;
    assert s[..|w|] == w && s[|w|..] == " R$ " + t;
    LiteralAt(s, 0, w);
    CurrencyLine(s, |w|, t);
    TaxFound(s, Lit(w), 0, |w| + 1);
    ImpostoIsLeftmost(Lit(w), s, 0);
  }

  /** ` R$ <amount>` at the end of a text, from `i` on. */
  lemma CurrencyLine(s: string, i: nat, t: string)
    requires IsAmountToken(t) && i + 4 + |t| == |s| && s[i..] == " R$ " + t
    ensures CurrencyAmountAt(s, i).None? && CurrencyAmountAt(s, i + 1) == Some(t)
  {
    assert s[i] == ' ' && s[i + 1..i + 3] == "R$" && s[i + 3] == ' ';
    assert s[i + 4..|s|] == t;
    LiteralNotAt(s, i, "R$", 0);
    LiteralAt(s, i + 1, "R$");
    assert IsRun(s, i + 4, |s|, AmountChar) by {
      forall k | i + 4 <= k < |s| ensures InClass(s[k], AmountChar) {
        assert s[k] == t[k - i - 4];
      }
    }
    assert IsRun(s, i + 3, i + 4, ColonOrBlank);
    CurrencyFound(s, i + 1, i + 4, |s|);
  }

  /** The gross-value line `Valor dos Servi?os R$: <amount>`, where `?` is
      any non-blank character (the invoice's ç, or a plain c): the value is
      read from that amount. */
  lemma ValorServicoLine(c: char, t: string)
    requires !IsSpace(c) && IsAmountToken(t)
    ensures ExtractValorServico(ValorServicoText(c) + t) == MatchToAmount(Some(t))
  {
    var s := ValorServicoText(c) + t;
    assert s[..23] == ValorServicoText(c);
    ValorServicoLineHead(s, c);
    ValorServicoLineTail(s, c, t);
    ValorServicoFound(s, 0, 15, 18, 16);
    ValorServicoIsLeftmost(s, 0);
  }

  lemma ValorServicoLineHead(s: string, c: char)
    requires !IsSpace(c) && |s| > 23 && s[..23] == ValorServicoText(c)
    ensures ServiEnd(s, 0) == Some(15) && IsRun(s, 15, 18, NonSpace)
  {
    ValorServicoLineLabels(s, c);
    ValorServicoLineRuns(s, c);
    ServiEndCases(s, 0, 6);
    ServiAfterFound(s, 9, 10);
  }

  lemma ValorServicoLineLabels(s: string, c: char)
    requires |s| > 23 && s[..23] == ValorServicoText(c)
    ensures LabelAt(s, 0, ValorLabel) && LabelAt(s, 6, DosLabel) && LabelAt(s, 10, ServiLabel)
  {
    var v := ValorServicoText(c);
    assert s[0..5] == v[0..5] == "Valor";
    assert s[6..9] == v[6..9] == "dos";
    assert s[10..15] == v[10..15] == "Servi";
    LiteralAt(s, 0, "Valor");
    LiteralAt(s, 6, "dos");
    LiteralAt(s, 10, "Servi");
  }

  lemma ValorServicoLineRuns(s: string, c: char)
    requires !IsSpace(c) && |s| > 23 && s[..23] == ValorServicoText(c)
    ensures IsRun(s, 5, 6, Space) && IsRun(s, 9, 10, Space) && IsRun(s, 15, 18, NonSpace)
  {
    var v := ValorServicoText(c);
    assert s[5] == v[5] == ' ' && s[6] == v[6] == 'd' && s[9] == v[9] == ' ' && s[10] == v[10] == 'S';
    assert s[15] == v[15] == c && s[16] == v[16] == 'o' && s[17] == v[17] == 's' && s[18] == v[18] == ' ';
  }

  lemma ValorServicoLineTail(s: string, c: char, t: string)
    requires IsAmountToken(t) && s == ValorServicoText(c) + t
    ensures OsTail(s, 16) == Some(t) && OsTail(s, 17).None? && OsTail(s, 18).None?
  {
    ValorServicoLineMarks(s, c, t);
    OsTailFound(s, 16, 19, 23, 23);
    AmountFound(s, 23, t);
  }

  /** Where `os`, the currency marker and the amount stand on that line. */
  lemma ValorServicoLineMarks(s: string, c: char, t: string)
    requires IsAmountToken(t) && s == ValorServicoText(c) + t
    ensures LabelAt(s, 16, OsLabel) && !LabelAt(s, 17, OsLabel) && !LabelAt(s, 18, OsLabel)
    ensures IsRun(s, 18, 19, Space) && LabelAt(s, 19, CurrencyLabel) && IsRun(s, 21, 23, ColonOrBlank)
    ensures 23 + |t| == |s| && s[23..] == t && IsAmountChar(s[23])
  {
    var v := ValorServicoText(c);
    assert s[..23] == v && s[23..] == t;
    assert s[16..18] == v[16..18] == "os" && s[19..21] == v[19..21] == "R$";
    assert s[17] == v[17] == 's' && s[18] == v[18] == ' ';
    LiteralAt(s, 16, "os");
    LiteralAt(s, 19, "R$");
    LiteralNotAt(s, 17, "os", 0);
    LiteralNotAt(s, 18, "os", 0);
    assert s[21] == v[21] == ':' && s[22] == v[22] == ' ';
  }

  /** The head of the gross-value line, with `c` where the invoice prints ç. */
  function ValorServicoText(c: char): (v: string)
    ensures |v| == 23
  {
    "Valor dos Servi" + [c] + "os R$: "
  }

  /** `Valor dos Servicos R$: 1.234,56` gives 1234.56, and so does the
      accented `Serviços`: the thousands points vanish and the digits after
      the comma are the decimal places. */
  lemma ValorServicoBrazilianLine(c: char, ip: string, fp: string)
    requires !IsSpace(c)
    requires forall i :: 0 <= i < |ip| ==> IsDigit(ip[i]) || ip[i] == '.'
    requires DigitsOf(ip) != "" && IsDigits(fp)
    ensures ExtractValorServico(ValorServicoText(c) + (ip + "," + fp)) ==
      Ok(Decimal(DigitsValue(DigitsOf(ip) + fp), |fp|))
  {
    BrazilianAmount(ip, fp);
    ValorServicoLine(c, ip + "," + fp);
  }

  /** The line exactly as `Valor dos Servicos R$: 1.234,56`: 123456
      hundredths. */
  lemma GrossValueExample(s: string)
    requires s == "Valor dos Servicos R$: 1.234,56"
    ensures ExtractValorServico(s) == Ok(Decimal(123456, 2))
  {
    ExampleGrossText(s);
    ExampleGrossDigits();
    ValorServicoBrazilianLine('c', "1.234", "56");
  }

  lemma ExampleGrossText(s: string)
    requires s == "Valor dos Servicos R$: 1.234,56"
    ensures s == ValorServicoText('c') + ("1.234" + "," + "56")
  {
  }

  lemma ExampleGrossDigits()
    ensures IsDigits("123456") && DigitsOf("1.234") + "56" == "123456" && DigitsValue("123456") == 123456
  {
    ExampleGrossValue();
    ExampleGrossDigitsOf();
  }

  lemma ExampleGrossValue()
    ensures IsDigits("123456") && DigitsValue("123456") == 123456
  {
    var x := "123456";
    assert x[..5] == "12345" && x[..5][..4] == "1234" && x[..5][..4][..3] == "123";
    assert x[..5][..4][..3][..2] == "12" && x[..5][..4][..3][..2][..1] == "1";
    assert x[..5][..4][..3][..2][..1][..0] == "";
    assert DigitsValue("1") == 1;
    assert DigitsValue("12") == 12;
    assert DigitsValue("123") == 123;
    assert DigitsValue("1234") == 1234;
    assert DigitsValue("12345") == 12345;
  }

  lemma ExampleGrossDigitsOf()
    ensures DigitsOf("1.234") == "1234"
  {
    var y := "1.234";
    assert y[1..] == ".234" && y[1..][1..] == "234" && y[1..][1..][1..] == "34";
    assert y[1..][1..][1..][1..] == "4" && y[1..][1..][1..][1..][1..] == "";
    assert DigitsOf("4") == "4";
    assert DigitsOf("34") == "34";
    assert DigitsOf("234") == "234";
    assert DigitsOf(".234") == "234";
  }

  /** An amount token that runs to the end of the text is captured whole. */
  lemma AmountFound(s: string, r: nat, t: string)
    requires IsAmountToken(t) && r + |t| == |s| && s[r..] == t
    ensures AmountAt(s, r) == Some(t)
  {
    assert s[r] == t[0];
    forall k | r <= k < |s| ensures InClass(s[k], AmountChar) {
      assert s[k] == t[k - r];
    }
    RunEndUnique(s, r, |s|, AmountChar);
    assert s[r..|s|] == t;
  }

  // ---------------------------------------------------------------------
  // The parser
  // ---------------------------------------------------------------------

  /** ServimaxParser: an issuer profile and a service description, both
      fixed when the parser is made and only read afterwards. */
  datatype ServimaxParser = ServimaxParser(prestador: Prestador, discriminacao: string := DefaultDiscriminacao) {

    /** `parse(content)`, with the clock reading `now` supplied by the caller.
        The first ValueError in evaluation order (timestamp, then service
        value, PIS, COFINS, CSLL, IRRF, INSS, ISS) escapes, as
        ParseFirstError states; otherwise the record carries the extracted
        fields, the parser's own profile and description, and the fixed
        defaults. */
    function Parse(content: string, now: ValidDateTime): (r: Result<NFSeData, ParseError>)
      ensures r.Ok? <==>
        && ExtractDataEmissao(content, now).Ok?
        && ExtractValorServico(content).Ok?
        && ExtractImposto(PisLabel, content).Ok?
        && ExtractImposto(CofinsLabel, content).Ok?
        && ExtractImposto(CsllLabel, content).Ok?
        && ExtractImposto(IrrfLabel, content).Ok?
        && ExtractImposto(InssLabel, content).Ok?
        && ExtractImposto(ValorIssLabel, content).Ok?
      ensures r.Err? && ExtractDataEmissao(content, now).Err? ==> r.error == ExtractDataEmissao(content, now).error
      ensures r.Ok? ==> r.value.prestador == prestador && r.value.discriminacao == discriminacao
      ensures r.Ok? ==>
        && r.value.numero == ExtractNumero(content)
        && r.value.codigoVerificacao == ExtractCodigo(content)
        && Ok(r.value.dataEmissao) == ExtractDataEmissao(content, now)
      ensures r.Ok? ==>
        var v := r.value.valores;
        && Ok(v.valorServicos) == ExtractValorServico(content)
        && Ok(v.pis) == ExtractImposto(PisLabel, content)
        && Ok(v.cofins) == ExtractImposto(CofinsLabel, content)
        && Ok(v.csll) == ExtractImposto(CsllLabel, content)
        && Ok(v.irrf) == ExtractImposto(IrrfLabel, content)
        && Ok(v.inss) == ExtractImposto(InssLabel, content)
        && Ok(v.iss) == ExtractImposto(ValorIssLabel, content)
      ensures r.Ok? ==>
        && r.value.naturezaOperacao == "1" && r.value.optanteSimples == "2"
        && r.value.incentivadorCultural == "2" && r.value.serieRps == "U" && r.value.tipoRps == "1"
    {
      var numero := ExtractNumero(content);
      var codigo := ExtractCodigo(content);
      var dataEmissao :- ExtractDataEmissao(content, now);
      var valorServicos :- ExtractValorServico(content);
      var pis :- ExtractImposto(PisLabel, content);
      var cofins :- ExtractImposto(CofinsLabel, content);
      var csll :- ExtractImposto(CsllLabel, content);
      var irrf :- ExtractImposto(IrrfLabel, content);
      var inss :- ExtractImposto(InssLabel, content);
      var iss :- ExtractImposto(ValorIssLabel, content);
      var valores := ValoresServico(
        valorServicos := valorServicos, pis := pis, cofins := cofins, csll := csll,
        irrf := irrf, inss := inss, iss := iss);
      Ok(NFSeData(numero, codigo, dataEmissao, valores, prestador, discriminacao))
    }
  }

  /** Text in which no `$` and no `/` occurs holds no currency marker and no
      date, so it cannot fail to parse: every amount is 0, and the issuance
      time is the clock's. */
  lemma UnmarkedTextParses(parser: ServimaxParser, s: string, now: ValidDateTime)
    requires forall i :: 0 <= i < |s| ==> s[i] != '$' && s[i] != '/'
    ensures var r := parser.Parse(s, now);
      && r.Ok?
      && r.value.dataEmissao == now
      && r.value.valores == ValoresServico()
  {
    NoCurrencyMarker(s);
    NoServiceValue(s);
    forall p | 0 <= p <= |s| ensures DateTimeAt(s, p).None? {
      if p + |DateShape| <= |s| {
        assert s[p + 2] != DateShape[2];
      }
    }
    NoTax(s, PisLabel);
    NoTax(s, CofinsLabel);
    NoTax(s, CsllLabel);
    NoTax(s, IrrfLabel);
    NoTax(s, InssLabel);
    NoTax(s, ValorIssLabel);
  }

  /** Without a `$` no currency marker occurs anywhere. */
  lemma NoCurrencyMarker(s: string)
    requires forall i :: 0 <= i < |s| ==> s[i] != '$'
    ensures forall r: nat :: !LabelAt(s, r, CurrencyLabel)
  {
    forall r: nat | r + 2 <= |s| ensures !LabelAt(s, r, CurrencyLabel) {
      LiteralNotAt(s, r, "R$", 1);
    }
  }

  /** Without a currency marker no tax label is followed by an amount. */
  lemma NoTax(s: string, lab: Label)
    requires forall r: nat :: !LabelAt(s, r, CurrencyLabel)
    ensures ExtractImposto(lab, s) == Ok(Zero)
  {
  }

  /** Without a currency marker the service-value pattern matches nowhere. */
  lemma NoServiceValue(s: string)
    requires forall r: nat :: !LabelAt(s, r, CurrencyLabel)
    ensures ExtractValorServico(s) == Ok(Zero)
  {
    forall p | 0 <= p <= |s| ensures ValorServicoAt(s, p).None? {
      if ServiEnd(s, p).Some? {
        var d := ServiEnd(s, p).value;
        var n := RunEnd(s, d, NonSpace);
        ValorServicoFound(s, p, d, n, d);
        forall z | d <= z <= n ensures OsTail(s, z).None? {
          if LabelAt(s, z, OsLabel) {
            OsTailAt(s, z, RunEnd(s, z + |OsLabel|, Space));
          }
        }
      }
    }
  }

  /** The error `parse` raises is the first one in evaluation order: the
      timestamp's, then the service value's, then each tax's in the order
      PIS, COFINS, CSLL, IRRF, INSS, ISS. */
  lemma ParseFirstError(parser: ServimaxParser, content: string, now: ValidDateTime)
    ensures var r := parser.Parse(content, now);
      var dt, vs := ExtractDataEmissao(content, now), ExtractValorServico(content);
      var pis, cofins, csll := ExtractImposto(PisLabel, content), ExtractImposto(CofinsLabel, content), ExtractImposto(CsllLabel, content);
      var irrf, inss, iss := ExtractImposto(IrrfLabel, content), ExtractImposto(InssLabel, content), ExtractImposto(ValorIssLabel, content);
      && (dt.Err? ==> r == Err(dt.error))
      && (dt.Ok? && vs.Err? ==> r == Err(vs.error))
      && (dt.Ok? && vs.Ok? && pis.Err? ==> r == Err(pis.error))
      && (dt.Ok? && vs.Ok? && pis.Ok? && cofins.Err? ==> r == Err(cofins.error))
      && (dt.Ok? && vs.Ok? && pis.Ok? && cofins.Ok? && csll.Err? ==> r == Err(csll.error))
      && (dt.Ok? && vs.Ok? && pis.Ok? && cofins.Ok? && csll.Ok? && irrf.Err? ==> r == Err(irrf.error))
      && (dt.Ok? && vs.Ok? && pis.Ok? && cofins.Ok? && csll.Ok? && irrf.Ok? && inss.Err? ==> r == Err(inss.error))
      && (dt.Ok? && vs.Ok? && pis.Ok? && cofins.Ok? && csll.Ok? && irrf.Ok? && inss.Ok? && iss.Err? ==> r == Err(iss.error))
  {
  }
}

=== FILE: roundtrip.dfy ===
/** How the two ends of the conversion fit together: the text the XML
    builder writes for an amount, spelled with a decimal comma as the
    invoice PDF spells it, is read back by the parser as the same amount in
    hundredths; and a date-time printed the way the invoice prints it is
    read back by strptime as the same date-time, whose ISO form the builder
    then writes. */
module RoundTrip {
  import opened Wrappers
  import opened Text
  import opened Decimals
  import opened Nfse
  import opened Parser
  import opened XmlBuilder

  /** The text Fmt writes for an amount, with its point spelled as a
      decimal comma the way the invoice spells amounts, is read by the
      parser as exactly the amount Fmt wrote, in hundredths. */
  lemma WrittenAmountReadsBack(d: Decimal)
    ensures IsAmountToken(CommaSpelling(d)) && MatchToAmount(Some(CommaSpelling(d))) == Ok(Decimal(Cents(d), 2))
  {
    var c := Cents(d);
    var ip, fp := NatToString(c / 100), TwoDigits(c % 100);
    FmtParts(d);
    assert CommaSpelling(d) == ip + "," + fp;
    CommaAmountOfCents(c);
  }

  /** Fmt(d) with its decimal point spelled as a comma: 1234.56 becomes
      1234,56. */
  function CommaSpelling(d: Decimal): string {
    var s := Fmt(d);
    s[..|s| - 3] + "," + s[|s| - 2..]
  }

  /** A tax line printing the written amount, `<label> R$ 1234,56`, is read
      back as that amount in hundredths. */
  lemma TaxLineReadsBack(w: string, d: Decimal)
    ensures ExtractImposto(Lit(w), w + " R$ " + CommaSpelling(d)) == Ok(Decimal(Cents(d), 2))
  {
    WrittenAmountReadsBack(d);
    ImpostoLine(w, CommaSpelling(d));
  }

  /** The gross-value line printing the written amount is read back as that
      amount in hundredths. */
  lemma GrossValueLineReadsBack(c: char, d: Decimal)
    requires !IsSpace(c)
    ensures ExtractValorServico(ValorServicoText(c) + CommaSpelling(d)) == Ok(Decimal(Cents(d), 2))
  {
    WrittenAmountReadsBack(d);
    ValorServicoLine(c, CommaSpelling(d));
  }

  lemma FmtParts(d: Decimal)
    ensures var s, c := Fmt(d), Cents(d);
      s[..|s| - 3] == NatToString(c / 100) && s[|s| - 2..] == TwoDigits(c % 100)
  {
    var c := Cents(d);
    var ip, fp := NatToString(c / 100), TwoDigits(c % 100);
    var s := Fmt(d);
    assert s == ip + "." + fp;
  }

  lemma CommaAmountOfCents(c: nat)
    ensures var ip, fp := NatToString(c / 100), TwoDigits(c % 100);
      IsAmountToken(ip + "," + fp) && MatchToAmount(Some(ip + "," + fp)) == Ok(Decimal(c, 2))
  {
    var ip, fp := NatToString(c / 100), TwoDigits(c % 100);
    NatToStringValue(c / 100);
    TwoDigitsValue(c % 100);
    DigitsOfDigits(ip);
    BrazilianAmount(ip, fp);
    DigitsValueAppend(ip, fp);
    assert Pow10(2) == 100;
    assert DigitsValue(ip + fp) == c;
  }

  /** A date-time as the invoice prints it: `DD/MM/YYYY HH:MM:SS`. */
  function BrazilianStamp(t: ValidDateTime): (s: string)
    ensures |s| == 19
  {
    TwoDigits(t.day) + "/" + TwoDigits(t.month) + "/" + FourDigits(t.year) + " "
      + TwoDigits(t.hour) + ":" + TwoDigits(t.minute) + ":" + TwoDigits(t.second)
  }

  /** The printed stamp has the shape the timestamp pattern looks for, its
      six fields are the digits of the date-time's six fields, and the
      pattern captures its date and its time. */
  lemma StampFieldsOfStamp(t: ValidDateTime)
    ensures ShapeAt(BrazilianStamp(t), 0, StampShape)
    ensures var s := BrazilianStamp(t);
      DateTimeAt(s, 0) == Some((s[..10], s[11..]))
    ensures var s := BrazilianStamp(t);
      && s[0..2] == TwoDigits(t.day) && s[3..5] == TwoDigits(t.month) && s[6..10] == FourDigits(t.year)
      && s[11..13] == TwoDigits(t.hour) && s[14..16] == TwoDigits(t.minute) && s[17..19] == TwoDigits(t.second)
  {
    var s := BrazilianStamp(t);
    StampSlices(t);
    FourDigitsValue(t.year);
    TwoDigitsValue(t.day);
    TwoDigitsValue(t.month);
    TwoDigitsValue(t.hour);
    TwoDigitsValue(t.minute);
    TwoDigitsValue(t.second);
    ShapeOfSlices(s);
    StampAt(s, 0);
    assert s[0..10] == s[..10] && s[11..19] == s[11..];
  }

  lemma StampSlices(t: ValidDateTime)
    ensures var s := BrazilianStamp(t);
      && s[0..2] == TwoDigits(t.day) && s[3..5] == TwoDigits(t.month) && s[6..10] == FourDigits(t.year)
      && s[11..13] == TwoDigits(t.hour) && s[14..16] == TwoDigits(t.minute) && s[17..19] == TwoDigits(t.second)
      && s[2] == '/' && s[5] == '/' && s[10] == ' ' && s[13] == ':' && s[16] == ':'
  {
    var s := BrazilianStamp(t);
    var dd, mm, yyyy := TwoDigits(t.day), TwoDigits(t.month), FourDigits(t.year);
    var hh, mi, ss := TwoDigits(t.hour), TwoDigits(t.minute), TwoDigits(t.second);
    assert s == dd + "/" + mm + "/" + yyyy + " " + hh + ":" + mi + ":" + ss;
  }

  /** Digit fields between the separators of `DD/MM/YYYY HH:MM:SS` make a
      stamp of that shape. */
  lemma ShapeOfSlices(s: string)
    requires |s| == 19 && s[2] == '/' && s[5] == '/' && s[10] == ' ' && s[13] == ':' && s[16] == ':'
    requires IsDigits(s[0..2]) && IsDigits(s[3..5]) && IsDigits(s[6..10])
    requires IsDigits(s[11..13]) && IsDigits(s[14..16]) && IsDigits(s[17..19])
    ensures ShapeAt(s, 0, StampShape)
  {
    forall k | 0 <= k < |StampShape|
      ensures if StampShape[k] == 'd' then IsDigit(s[k]) else s[k] == StampShape[k]
    {
      if k < 2 { assert s[k] == s[0..2][k]; }
      else if 3 <= k < 5 { assert s[k] == s[3..5][k - 3]; }
      else if 6 <= k < 10 { assert s[k] == s[6..10][k - 6]; }
      else if 11 <= k < 13 { assert s[k] == s[11..13][k - 11]; }
      else if 14 <= k < 16 { assert s[k] == s[14..16][k - 14]; }
      else if 17 <= k { assert s[k] == s[17..19][k - 17]; }
    }
  }

  /** The timestamp pattern finds a stamp of the printed shape wherever it
      stands, with the date and the time as its two groups. */
  lemma StampAt(s: string, p: nat)
    requires ShapeAt(s, p, StampShape)
    ensures DateTimeAt(s, p) == Some((s[p..p + 10], s[p + 11..p + 19]))
  {
    assert ShapeAt(s, p, DateShape) by {
      forall k | 0 <= k < |DateShape|
        ensures if DateShape[k] == 'd' then IsDigit(s[p + k]) else s[p + k] == DateShape[k]
      {
        assert DateShape[k] == StampShape[k];
      }
    }
    assert ShapeAt(s, p + 11, TimeShape) by {
      forall k | 0 <= k < |TimeShape|
        ensures if TimeShape[k] == 'd' then IsDigit(s[p + 11 + k]) else s[p + 11 + k] == TimeShape[k]
      {
        assert TimeShape[k] == StampShape[k + 11];
      }
    }
    assert StampShape[10] == ' ' && StampShape[11] == 'd';
    assert s[p + 10] == ' ' && IsDigit(s[p + 11]);
    DateTimeFound(s, p, p + 11);
  }

  /** A stamp printed anywhere in a text, after text that holds no digit,
      is the issuance time the parser reads. */
  lemma StampInText(pre: string, t: ValidDateTime, post: string, now: ValidDateTime)
    requires forall i :: 0 <= i < |pre| ==> !IsDigit(pre[i])
    ensures ExtractDataEmissao(pre + BrazilianStamp(t) + post, now) == Ok(t)
  {
    var st := BrazilianStamp(t);
    var s := pre + st + post;
    var p := |pre|;
    StampFieldsOfStamp(t);
    assert ShapeAt(s, p, StampShape) by {
      forall k | 0 <= k < |StampShape|
        ensures if StampShape[k] == 'd' then IsDigit(s[p + k]) else s[p + k] == StampShape[k]
      {
        assert s[p + k] == st[k];
      }
    }
    StampAt(s, p);
    forall q | 0 <= q < p ensures DateTimeAt(s, q).None? {
      assert s[q] == pre[q] && DateShape[0] == 'd';
    }
    assert s[p..p + 10] + " " + s[p + 11..p + 19] == st;
    DataEmissaoIsLeftmost(s, now, p);
    StampReadsBack(t);
  }

  /** The stamp `12/03/2024 14:05:30` alone on a line is read as 12 March
      2024, 14:05:30. */
  lemma IssuedStampExample(s: string, now: ValidDateTime)
    requires s == "12/03/2024 14:05:30"
    ensures ExtractDataEmissao(s, now) == Ok(DateTime(2024, 3, 12, 14, 5, 30))
  {
    var t: ValidDateTime := DateTime(2024, 3, 12, 14, 5, 30);
    ExampleStamp();
    StampAlone(t, now);
  }

  /** A stamp alone is read as the date-time it was printed from. */
  lemma StampAlone(t: ValidDateTime, now: ValidDateTime)
    ensures ExtractDataEmissao(BrazilianStamp(t), now) == Ok(t)
  {
    StampInText("", t, "", now);
    assert "" + BrazilianStamp(t) + "" == BrazilianStamp(t);
  }

  lemma ExampleStamp()
    ensures BrazilianStamp(DateTime(2024, 3, 12, 14, 5, 30)) == "12/03/2024 14:05:30"
  {
    ExampleFields();
  }

  /** A record issued at that time has the period `2024-03-12` and writes
      the time as `2024-03-12T14:05:30`. */
  lemma IssuedIsoExample(v: ValoresServico, p: Prestador)
    ensures NFSeData("4521", "AB12XZ", DateTime(2024, 3, 12, 14, 5, 30), v, p).Competencia() == "2024-03-12"
    ensures NFSeData("4521", "AB12XZ", DateTime(2024, 3, 12, 14, 5, 30), v, p).DataIso() == "2024-03-12T14:05:30"
  {
    ExampleFields();
    var r := NFSeData("4521", "AB12XZ", DateTime(2024, 3, 12, 14, 5, 30), v, p);
    assert r.Competencia() == "2024" + "-" + "03" + "-" + "12";
    assert r.DataIso() == r.Competencia() + "T" + "14" + ":" + "05" + ":" + "30";
  }

  lemma ExampleFields()
    ensures TwoDigits(12) == "12" && TwoDigits(3) == "03" && FourDigits(2024) == "2024"
    ensures TwoDigits(14) == "14" && TwoDigits(5) == "05" && TwoDigits(30) == "30"
  {
    assert TwoDigits(20) == "20" && TwoDigits(24) == "24";
  }

  /** The invoice number read from `NFSe 4521` becomes the `Id` NFS4521 of
      InfNfse and the text of its Numero; the parse itself succeeds when
      what follows holds no `$` and no `/`. */
  lemma NumberReachesId(parser: ServimaxParser, ds: string, post: string, now: ValidDateTime)
    requires |ds| >= 1 && IsDigits(ds)
    requires post == [] || !IsDigit(post[0])
    ensures (forall i :: 0 <= i < |post| ==> post[i] != '$' && post[i] != '/') ==>
      parser.Parse("NFSe " + ds + post, now).Ok?
    ensures var r := parser.Parse("NFSe " + ds + post, now);
      r.Ok? ==>
        var t := TreeOf(r.value);
        && FindPath(t, InfPath).Some?
        && "Id" in FindPath(t, InfPath).value.attrs
        && FindPath(t, InfPath).value.attrs["Id"] == "NFS" + ds
        && TextAt(t, InfPath + ["Numero"]) == Some(ds)
  {
    var s := "NFSe " + ds + post;
    NumeroLine(ds, post);
    if forall i :: 0 <= i < |post| ==> post[i] != '$' && post[i] != '/' {
      NumberLineUnmarked(ds, post);
      UnmarkedTextParses(parser, s, now);
    }
    if parser.Parse(s, now).Ok? {
      InvoiceWritten(parser.Parse(s, now).value);
    }
  }

  lemma NumberLineUnmarked(ds: string, post: string)
    requires IsDigits(ds)
    requires forall i :: 0 <= i < |post| ==> post[i] != '$' && post[i] != '/'
    ensures var s := "NFSe " + ds + post;
      forall i :: 0 <= i < |s| ==> s[i] != '$' && s[i] != '/'
  {
    var s := "NFSe " + ds + post;
    forall i | 0 <= i < |s| ensures s[i] != '$' && s[i] != '/' {
      if i >= 5 + |ds| {
        assert s[i] == post[i - 5 - |ds|];
      } else if i >= 5 {
        assert s[i] == ds[i - 5];
      }
    }
  }

  /** The first lines of an invoice, `NFSe 4521 Código de Verificação
      AB12XZ`, parse, and the record's XML carries the `Id` NFS4521, the
      Numero 4521 and the CodigoVerificacao AB12XZ, with the clock's time
      and every amount 0. */
  lemma HeaderReachesXml(parser: ServimaxParser, ds: string, code: string, now: ValidDateTime)
    requires |ds| >= 1 && IsDigits(ds)
    requires |code| >= 1 && forall i :: 0 <= i < |code| ==> IsWordChar(code[i])
    ensures var r := parser.Parse("NFSe " + ds + " " + CodigoText + " " + code, now);
      && r.Ok?
      && r.value.dataEmissao == now
      && r.value.valores == ValoresServico()
      && var t := TreeOf(r.value);
        && FindPath(t, InfPath).Some?
        && "Id" in FindPath(t, InfPath).value.attrs
        && FindPath(t, InfPath).value.attrs["Id"] == "NFS" + ds
        && TextAt(t, InfPath + ["Numero"]) == Some(ds)
        && TextAt(t, InfPath + ["CodigoVerificacao"]) == Some(code)
  {
    var s := "NFSe " + ds + " " + CodigoText + " " + code;
    HeaderFields(ds, code);
    UnmarkedTextParses(parser, s, now);
    InvoiceWritten(parser.Parse(s, now).value);
  }

  /** What the header text yields field by field: the number, the code,
      and no `$` or `/` anywhere. */
  lemma HeaderFields(ds: string, code: string)
    requires |ds| >= 1 && IsDigits(ds)
    requires |code| >= 1 && forall i :: 0 <= i < |code| ==> IsWordChar(code[i])
    ensures var s := "NFSe " + ds + " " + CodigoText + " " + code;
      && ExtractNumero(s) == ds && ExtractCodigo(s) == code
      && forall i :: 0 <= i < |s| ==> s[i] != '$' && s[i] != '/'
  {
    var post := " " + CodigoText + " " + code;
    var s := "NFSe " + ds + " " + CodigoText + " " + code;
    assert s == "NFSe " + ds + post;
    NumeroLine(ds, post);
    HeaderCode(ds, code);
    HeaderUnmarked(ds, code);
  }

  lemma HeaderCode(ds: string, code: string)
    requires IsDigits(ds)
    requires |code| >= 1 && forall i :: 0 <= i < |code| ==> IsWordChar(code[i])
    ensures ExtractCodigo("NFSe " + ds + " " + CodigoText + " " + code) == code
  {
    var pre := "NFSe " + ds + " ";
    assert "NFSe " + ds + " " + CodigoText + " " + code == pre + CodigoText + " " + code + [];
    forall i | 0 <= i < |pre| ensures Fold(pre[i]) != 'c' {
      if 5 <= i < 5 + |ds| {
        assert pre[i] == ds[i - 5];
      }
    }
    CodigoAfter(pre, code, []);
  }

  lemma HeaderUnmarked(ds: string, code: string)
    requires IsDigits(ds)
    requires forall i :: 0 <= i < |code| ==> IsWordChar(code[i])
    ensures var s := "NFSe " + ds + " " + CodigoText + " " + code;
      forall i :: 0 <= i < |s| ==> s[i] != '$' && s[i] != '/'
  {
    var s := "NFSe " + ds + " " + CodigoText + " " + code;
    var k := 6 + |ds| + |CodigoText|;
    forall i | 0 <= i < |s| ensures s[i] != '$' && s[i] != '/' {
      if i > k {
        assert s[i] == code[i - k - 1];
      } else if 5 <= i < 5 + |ds| {
        assert s[i] == ds[i - 5];
      } else if 5 + |ds| < i < k {
        assert s[i] == CodigoText[i - 6 - |ds|];
      }
    }
  }


  /** strptime reads the printed stamp back as the date-time it was
      printed from. */
  lemma StampReadsBack(t: ValidDateTime)
    ensures ShapeAt(BrazilianStamp(t), 0, StampShape)
    ensures Strptime(BrazilianStamp(t)) == Ok(t)
  {
    StampFieldsOfStamp(t);
    FourDigitsValue(t.year);
    TwoDigitsValue(t.day);
    TwoDigitsValue(t.month);
    TwoDigitsValue(t.hour);
    TwoDigitsValue(t.minute);
    TwoDigitsValue(t.second);
  }
}

=== FILE: text.dfy ===
/** The pieces of Python's regular-expression semantics that the extraction
    patterns of the NFSe parser rely on, written as plain functions over
    strings: character classes, maximal (greedy) runs, case-insensitive
    literal labels and the leftmost search of `re.search`; and the decimal
    digit strings that the parser reads and the XML builder writes. */
module Text {
  import opened Wrappers

  // ---------------------------------------------------------------------
  // Character classes
  // ---------------------------------------------------------------------

  /** `\s` of a str pattern, which is Python's `str.isspace`. */
  predicate IsSpace(c: char) {
    c == ' ' || '\t' <= c <= '\r' || '\U{1C}' <= c <= '\U{1F}' || c == '\U{85}' || c == '\U{A0}'
    || c == '\U{1680}' || '\U{2000}' <= c <= '\U{200A}' || c == '\U{2028}' || c == '\U{2029}'
    || c == '\U{202F}' || c == '\U{205F}' || c == '\U{3000}'
  }

  /** `\d`, restricted to the ASCII digits. */
  predicate IsDigit(c: char) {
    '0' <= c <= '9'
  }

  /** `\w`, restricted to ASCII letters, digits and the underscore. */
  predicate IsWordChar(c: char) {
    'a' <= c <= 'z' || 'A' <= c <= 'Z' || IsDigit(c) || c == '_'
  }

  /** `[\d\.,]`: a character of a Brazilian amount such as 1.234,56. */
  predicate IsAmountChar(c: char) {
    IsDigit(c) || c == '.' || c == ','
  }

  /** The classes a greedy repetition in the patterns runs over. */
  datatype CharClass =
    | Space        // \s
    | NonSpace     // \S
    | Digit        // \d
    | Word         // [\w\d]
    | AmountChar   // [\d\.,]
    | ColonOrBlank // [: ]

  predicate InClass(c: char, cls: CharClass) {
    match cls
    case Space => IsSpace(c)
    case NonSpace => !IsSpace(c)
    case Digit => IsDigit(c)
    case Word => IsWordChar(c)
    case AmountChar => IsAmountChar(c)
    case ColonOrBlank => c == ':' || c == ' '
  }

  /** End of the greedy run `cls*` that starts at `i`: every character in
      between belongs to the class and the one at the end does not. */
  function RunEnd(s: string, i: nat, cls: CharClass): (j: nat)
    requires i <= |s|
    ensures i <= j <= |s|
    ensures forall k :: i <= k < j ==> InClass(s[k], cls)
    ensures j == |s| || !InClass(s[j], cls)
    decreases |s| - i
  {
    if i < |s| && InClass(s[i], cls) then RunEnd(s, i + 1, cls) else i
  }

  /** `s[i..j]` is a maximal run of `cls`: all of it belongs to the class
      and the character after it, if any, does not. */
  predicate IsRun(s: string, i: nat, j: nat, cls: CharClass) {
    i <= j <= |s| && (forall k :: i <= k < j ==> InClass(s[k], cls)) && (j == |s| || !InClass(s[j], cls))
  }

  /** A maximal run is the one RunEnd finds: greedy runs are unique. */
  lemma RunEndUnique(s: string, i: nat, j: nat, cls: CharClass)
    requires IsRun(s, i, j, cls)
    ensures RunEnd(s, i, cls) == j
  {
  }

  // ---------------------------------------------------------------------
  // Case-insensitive labels
  // ---------------------------------------------------------------------

  /** Simple case folding under re.IGNORECASE: ASCII letters and the three
      accented letters the patterns mention (ó, ç, ã). */
  function Fold(c: char): char {
    if 'A' <= c <= 'Z' then (c as int + 32) as char
    else if c == '\U{D3}' then '\U{F3}'      // Ó -> ó
    else if c == '\U{C7}' then '\U{E7}'      // Ç -> ç
    else if c == '\U{C3}' then '\U{E3}'      // Ã -> ã
    else c
  }

  /** A label is a sequence of positions, each listing the characters it
      accepts: "NFSe" is [['N'], ['F'], ['S'], ['e']], and a class such as
      [oó] is one position with two alternatives. */
  type Label = seq<string>

  /** The label of a plain literal. */
  function Lit(w: string): (l: Label)
    ensures |l| == |w|
    ensures forall k :: 0 <= k < |w| ==> l[k] == [w[k]]
  {
    seq(|w|, k requires 0 <= k < |w| => [w[k]])
  }

  /** Position `alts` accepts `c` ignoring case. */
  predicate Accepts(alts: string, c: char) {
    exists i :: 0 <= i < |alts| && Fold(alts[i]) == Fold(c)
  }

  /** The label `pat` occurs, ignoring case, at position `p` of `s`. */
  predicate LabelAt(s: string, p: nat, pat: Label) {
    p + |pat| <= |s| && forall k :: 0 <= k < |pat| ==> Accepts(pat[k], s[p + k])
  }

  // ---------------------------------------------------------------------
  // Leftmost search
  // ---------------------------------------------------------------------

  /** `re.search`: try every start position from `i` up to and including
      `|s|`, in order, and report the first at which the pattern `at`
      matches, with what it captured. */
  function Search<T>(s: string, at: nat -> Option<T>, i: nat): (r: Option<(nat, T)>)
    ensures r.Some? ==> i <= r.value.0 <= |s| && at(r.value.0) == Some(r.value.1)
    ensures r.Some? ==> forall q :: i <= q < r.value.0 ==> at(q).None?
    ensures r.None? ==> forall q :: i <= q <= |s| ==> at(q).None?
    decreases |s| + 1 - i
  {
    if i > |s| then None
    else match at(i)
      case Some(t) => Some((i, t))
      case None => Search(s, at, i + 1)
  }

  /** When `p` is the first position from `i` on at which `at` matches,
      the search from `i` reports `p` and what `at` captured there. */
  lemma SearchFindsLeftmost<T>(s: string, at: nat -> Option<T>, i: nat, p: nat)
    requires i <= p <= |s| && at(p).Some?
    requires forall q :: i <= q < p ==> at(q).None?
    ensures Search(s, at, i) == Some((p, at(p).value))
  {
  }

  /** A greedy repetition giving characters back: try the split points from
      `x` down to `d`, in that order, and report the first (so the largest)
      at which `at` matches, with what it captured. */
  function SearchBack<T>(at: nat -> Option<T>, d: nat, x: nat): (r: Option<(nat, T)>)
    requires d <= x
    ensures r.Some? ==> d <= r.value.0 <= x && at(r.value.0) == Some(r.value.1)
    ensures r.Some? ==> forall q :: r.value.0 < q <= x ==> at(q).None?
    ensures r.None? ==> forall q :: d <= q <= x ==> at(q).None?
    decreases x - d
  {
    match at(x)
    case Some(t) => Some((x, t))
    case None => if x == d then None else SearchBack(at, d, x - 1)
  }

  /** The split point the backward search reports is the largest at which
      `at` matches, and it reports none exactly when `at` matches nowhere. */
  lemma SearchBackCases<T>(at: nat -> Option<T>, d: nat, x: nat, y: nat)
    requires d <= y <= x
    ensures SearchBack(at, d, x).None? <==> forall q :: d <= q <= x ==> at(q).None?
    ensures at(y).Some? && (forall q :: y < q <= x ==> at(q).None?) ==>
      SearchBack(at, d, x) == Some((y, at(y).value))
  {
    var m := SearchBack(at, d, x);
    if m.Some? {
      assert at(m.value.0).Some?;
    }
  }

  /** The search reports nothing when `at` matches nowhere from `i` on. */
  lemma SearchMisses<T>(s: string, at: nat -> Option<T>, i: nat)
    requires forall q :: i <= q <= |s| ==> at(q).None?
    ensures Search(s, at, i).None?
  {
  }

  /** What the leftmost match captured, if anything matched. */
  function Captured<T>(r: Option<(nat, T)>): Option<T> {
    match r
    case None => None
    case Some(m) => Some(m.1)
  }

  // ---------------------------------------------------------------------
  // Decimal digit strings
  // ---------------------------------------------------------------------

  function Pow10(n: nat): (r: nat)
    ensures r >= 1
  {
    if n == 0 then 1 else 10 * Pow10(n - 1)
  }

  lemma {:induction false} Pow10Add(a: nat, b: nat)
    ensures Pow10(a + b) == Pow10(a) * Pow10(b)
    decreases a
  {
    if a > 0 {
      Pow10Add(a - 1, b);
    }
  }

  predicate IsDigits(s: string) {
    forall i :: 0 <= i < |s| ==> IsDigit(s[i])
  }

  function DigitValue(c: char): (d: nat)
    requires IsDigit(c)
    ensures d < 10
  {
    c as int - '0' as int
  }

  function DigitChar(d: nat): (c: char)
    requires d < 10
    ensures IsDigit(c) && DigitValue(c) == d
  {
    ('0' as int + d) as char
  }

  /** The number a string of decimal digits denotes (0 for the empty string). */
  function DigitsValue(s: string): nat
    requires IsDigits(s)
    decreases |s|
  {
    if s == [] then 0 else DigitsValue(s[..|s| - 1]) * 10 + DigitValue(s[|s| - 1])
  }

  /** Reading the digits of a concatenation: the left part is shifted by the
      length of the right part. */
  lemma {:induction false} DigitsValueAppend(a: string, b: string)
    requires IsDigits(a) && IsDigits(b)
    ensures IsDigits(a + b)
    ensures DigitsValue(a + b) == DigitsValue(a) * Pow10(|b|) + DigitsValue(b)
    decreases |b|
  {
    if b != [] {
      var b' := b[..|b| - 1];
      assert (a + b)[..|a + b| - 1] == a + b';
      DigitsValueAppend(a, b');
      calc {
        DigitsValue(a + b);
        DigitsValue(a + b') * 10 + DigitValue(b[|b| - 1]);
        (DigitsValue(a) * Pow10(|b'|) + DigitsValue(b')) * 10 + DigitValue(b[|b| - 1]);
        { ShiftDigit(DigitsValue(a), Pow10(|b'|), DigitsValue(b'), DigitValue(b[|b| - 1])); }
        DigitsValue(a) * (Pow10(|b'|) * 10) + (DigitsValue(b') * 10 + DigitValue(b[|b| - 1]));
        DigitsValue(a) * Pow10(|b|) + DigitsValue(b);
      }
    } else {
      assert a + b == a;
    }
  }

  lemma ShiftDigit(x: nat, p: nat, y: nat, d: nat)
    ensures (x * p + y) * 10 + d == x * (p * 10) + (y * 10 + d)
  {
  }

  /** Python's `str(n)` for a natural number: decimal digits without leading
      zeros, "0" for zero. */
  function NatToString(n: nat): (s: string)
    ensures |s| >= 1
    decreases n
  {
    if n < 10 then [DigitChar(n)] else NatToString(n / 10) + [DigitChar(n % 10)]
  }

  /** `str(n)` is a digit string without leading zeros that reads back as `n`. */
  lemma {:induction false} NatToStringValue(n: nat)
    ensures IsDigits(NatToString(n)) && DigitsValue(NatToString(n)) == n
    ensures |NatToString(n)| > 1 ==> NatToString(n)[0] != '0'
    decreases n
  {
    if n >= 10 {
      var p := NatToString(n / 10);
      NatToStringValue(n / 10);
      var s := p + [DigitChar(n % 10)];
      assert NatToString(n) == s;
      assert s[..|s| - 1] == p;
    }
  }

  /** `n` written with exactly two digits, zero-padded on the left, as the
      `%m`, `%d`, `%H`, `%M` and `%S` directives of strftime write it. */
  function TwoDigits(n: nat): (s: string)
    requires n < 100
    ensures |s| == 2
  {
    [DigitChar(n / 10), DigitChar(n % 10)]
  }

  /** `n` written with exactly four digits, as `%Y` writes a year. */
  function FourDigits(n: nat): (s: string)
    requires n < 10000
    ensures |s| == 4
  {
    TwoDigits(n / 100) + TwoDigits(n % 100)
  }

  /** Reading back a padded number gives the number. */
  lemma TwoDigitsValue(n: nat)
    requires n < 100
    ensures IsDigits(TwoDigits(n)) && DigitsValue(TwoDigits(n)) == n
  {
    var s := TwoDigits(n);
    assert IsDigit(s[0]) && IsDigit(s[1]);
    assert s[..1][..0] == [];
    assert DigitsValue(s[..1]) == DigitValue(s[0]);
  }

  lemma FourDigitsValue(n: nat)
    requires n < 10000
    ensures IsDigits(FourDigits(n)) && DigitsValue(FourDigits(n)) == n
  {
    TwoDigitsValue(n / 100);
    TwoDigitsValue(n % 100);
    DigitsValueAppend(TwoDigits(n / 100), TwoDigits(n % 100));
    assert Pow10(2) == 100;
  }

  /** A literal written verbatim at `p` is found there as a label. */
  lemma LiteralAt(s: string, p: nat, w: string)
    requires p + |w| <= |s| && s[p..p + |w|] == w
    ensures LabelAt(s, p, Lit(w))
  {
    forall k | 0 <= k < |w| ensures Accepts(Lit(w)[k], s[p + k]) {
      assert s[p + k] == w[k];
      assert Lit(w)[k][0] == w[k];
    }
  }

  /** A literal is not found where one of its characters differs, ignoring
      case, from the text. */
  lemma LiteralNotAt(s: string, p: nat, w: string, k: nat)
    requires k < |w| && p + k < |s| && Fold(s[p + k]) != Fold(w[k])
    ensures !LabelAt(s, p, Lit(w))
  {
    assert Lit(w)[k] == [w[k]];
  }
}

=== FILE: wrappers.dfy ===
/** Option and Result, the two failure-compatible wrappers the model uses:
    Option for a regular-expression search that may find nothing, Result for
    the conversions that raise ValueError in the original program. */
module Wrappers {

  datatype Option<+T> = None | Some(value: T)

  datatype Result<+T, +E> = Ok(value: T) | Err(error: E) {

    predicate IsFailure() {
      Err?
    }

    function PropagateFailure<U>(): Result<U, E>
      requires Err?
    {
      Err(error)
    }

    function Extract(): T
      requires Ok?
    {
      value
    }
  }
}

=== FILE: xml_builder.dfy ===
/** The ABRASF 2.x XML tree builder (services/xml_builder.py). ABRASF is the
    NFSe layout of the Associação Brasileira das Secretarias de Finanças das
    Capitais. The element tree is a value here; the two build methods grow
    it step by step in the order the original adds sub-elements, and are
    proved to produce the tree that CompNfseOf describes declaratively. */
module XmlBuilder {
  import opened Wrappers
  import opened Text
  import opened Decimals
  import opened Nfse

  /** The ABRASF namespace. The original registers it as the default prefix
      in ElementTree's global table; the tags it creates are unqualified, so
      the tree itself carries no namespace. */
  const Namespace: string := "http://www.abrasf.org.br/nfse.xsd"

  /** An ElementTree element: tag, attributes, optional text, children in order. */
  datatype Element = Element(tag: string, attrs: map<string, string>, text: Option<string>, children: seq<Element>)

  /** `ET.Element(tag)`: no attributes, no text, no children. */
  function NewElement(tag: string): Element {
    Element(tag, map[], None, [])
  }

  /** `ET.SubElement(parent, tag).text = text`, seen from the child. */
  function Leaf(tag: string, text: string): Element {
    Element(tag, map[], Some(text), [])
  }

  /** `parent.append(child)`: the child goes after the existing ones. */
  function Append(parent: Element, child: Element): Element {
    parent.(children := parent.children + [child])
  }

  // ---------------------------------------------------------------------
  // Reading a tree: child tags, find, paths
  // ---------------------------------------------------------------------

  /** The children of `e` carry exactly the tags `tags`, in that order. */
  predicate HasChildTags(e: Element, tags: seq<string>) {
    |e.children| == |tags| && forall k :: 0 <= k < |tags| ==> e.children[k].tag == tags[k]
  }

  /** The first element of `children` with tag `tag`. */
  function FirstWithTag(children: seq<Element>, tag: string): Option<Element> {
    if children == [] then None
    else if children[0].tag == tag then Some(children[0])
    else FirstWithTag(children[1..], tag)
  }

  /** The first child with a given tag is the one at the first index
      carrying that tag. */
  lemma {:induction false} FirstWithTagAt(children: seq<Element>, tag: string, i: nat)
    requires i < |children| && children[i].tag == tag
    requires forall j :: 0 <= j < i ==> children[j].tag != tag
    ensures FirstWithTag(children, tag) == Some(children[i])
    decreases i
  {
    if i > 0 {
      FirstWithTagAt(children[1..], tag, i - 1);
    }
  }

  /** `e.find(tag)`: the first direct child with that tag. */
  function Find(e: Element, tag: string): Option<Element> {
    FirstWithTag(e.children, tag)
  }

  /** The child `find` returns is the one at the first index carrying the tag. */
  lemma FindAt(e: Element, tag: string, i: nat)
    requires i < |e.children| && e.children[i].tag == tag
    requires forall j :: 0 <= j < i ==> e.children[j].tag != tag
    ensures Find(e, tag) == Some(e.children[i])
  {
    FirstWithTagAt(e.children, tag, i);
  }

  /** No tag occurs twice in `tags`. */
  predicate DistinctTags(tags: seq<string>) {
    forall i, j :: 0 <= i < j < |tags| ==> tags[i] != tags[j]
  }

  /** Among children with pairwise distinct tags, `find` returns the one
      carrying the tag asked for. */
  lemma FindDistinct(e: Element, tags: seq<string>, k: nat)
    requires HasChildTags(e, tags) && DistinctTags(tags) && k < |tags|
    ensures Find(e, tags[k]) == Some(e.children[k])
  {
    FindAt(e, tags[k], k);
  }

  /** Follow a path of tags, taking the first matching child at each step. */
  function FindPath(e: Element, path: seq<string>): Option<Element>
    decreases |path|
  {
    if path == [] then Some(e)
    else match Find(e, path[0])
      case None => None
      case Some(c) => FindPath(c, path[1..])
  }

  /** Following `p + q` is following `p`, then `q` from where `p` led. */
  lemma {:induction false} FindPathAppend(e: Element, p: seq<string>, q: seq<string>)
    ensures FindPath(e, p + q) == match FindPath(e, p) case None => None case Some(c) => FindPath(c, q)
    decreases |p|
  {
    if p == [] {
      assert p + q == q;
    } else {
      assert (p + q)[0] == p[0] && (p + q)[1..] == p[1..] + q;
      match Find(e, p[0]) {
        case None =>
        case Some(c) => FindPathAppend(c, p[1..], q);
      }
    }
  }

  /** Once `p` leads to `c`, following `p + q` reads what `q` reads from `c`. */
  lemma FindPathVia(e: Element, p: seq<string>, c: Element, q: seq<string>)
    requires FindPath(e, p) == Some(c)
    ensures FindPath(e, p + q) == FindPath(c, q)
    ensures TextAt(e, p + q) == TextAt(c, q)
  {
    FindPathAppend(e, p, q);
  }

  /** The text of the element a path leads to. */
  function TextAt(e: Element, path: seq<string>): Option<string> {
    match FindPath(e, path)
    case None => None
    case Some(c) => c.text
  }

  // ---------------------------------------------------------------------
  // Amounts
  // ---------------------------------------------------------------------

  /** The amount in hundredths: exact for amounts with at most two
      fractional digits, rounded half to even otherwise (see CentsExact
      and CentsNearest). */
  function Cents(d: Decimal): nat {
    if d.scale <= 2 then d.units * Pow10(2 - d.scale)
    else RoundHalfEven(d.units, Pow10(d.scale - 2))
  }

  /** `u / k` rounded to the nearest whole number, ties to the even one. */
  function RoundHalfEven(u: nat, k: nat): nat
    requires k >= 1
  {
    var q, rem := u / k, u % k;
    if 2 * rem > k || (2 * rem == k && q % 2 == 1) then q + 1 else q
  }

  /** RoundHalfEven lies within half a unit of `u / k`, and on a tie it is
      the even neighbour. */
  lemma RoundHalfEvenNearest(u: nat, k: nat)
    requires k >= 1
    ensures var c := RoundHalfEven(u, k);
      && (2 * c - 1) * k <= 2 * u <= (2 * c + 1) * k
      && ((2 * c - 1) * k == 2 * u ==> c % 2 == 0)
      && (2 * u == (2 * c + 1) * k ==> c % 2 == 0)
  {
    var q, rem := u / k, u % k;
    assert 2 * u == 2 * (q * k) + 2 * rem;
    var c := RoundHalfEven(u, k);
    if c == q + 1 {
      assert (2 * c - 1) * k == 2 * (q * k) + k;
      assert (2 * c + 1) * k == 2 * (q * k) + 3 * k;
    } else {
      assert (2 * c - 1) * k == 2 * (q * k) - k;
      assert (2 * c + 1) * k == 2 * (q * k) + k;
    }
  }

  /** An amount with at most two fractional digits is kept exactly. */
  lemma CentsExact(d: Decimal)
    requires d.scale <= 2
    ensures SameValue(Decimal(Cents(d), 2), d)
  {
    var k := Pow10(2 - d.scale);
    Pow10Add(2 - d.scale, d.scale);
    assert d.units * k * Pow10(d.scale) == d.units * (k * Pow10(d.scale));
  }

  /** An amount with more fractional digits is rounded to the nearest
      hundredth, ties to the even one. */
  lemma CentsNearest(d: Decimal)
    requires d.scale > 2
    ensures var c, k := Cents(d), Pow10(d.scale - 2);
      && (2 * c - 1) * k <= 2 * d.units <= (2 * c + 1) * k
      && ((2 * c - 1) * k == 2 * d.units ==> c % 2 == 0)
      && (2 * d.units == (2 * c + 1) * k ==> c % 2 == 0)
  {
    RoundHalfEvenNearest(d.units, Pow10(d.scale - 2));
  }

  /** `_fmt`: `f"{value:.2f}"`, the integer part without grouping, a point
      and exactly two fractional digits, no currency symbol. */
  function Fmt(d: Decimal): (s: string)
    ensures |s| >= 4 && s[|s| - 3] == '.'
  {
    var c := Cents(d);
    assert Pow10(2) == 100;
    NatToString(c / 100) + "." + TwoDigits(c % 100)
  }

  /** Every output amount is digits with a point before the last two, and
      has no leading zero unless its integer part is 0. */
  lemma FmtShape(d: Decimal)
    ensures var s := Fmt(d);
      && (forall i :: 0 <= i < |s| && i != |s| - 3 ==> IsDigit(s[i]))
      && (|s| > 4 ==> s[0] != '0')
  {
    var c := Cents(d);
    assert Pow10(2) == 100;
    var ip, fp := NatToString(c / 100), TwoDigits(c % 100);
    NatToStringValue(c / 100);
    TwoDigitsValue(c % 100);
    var s := ip + "." + fp;
    assert Fmt(d) == s;
    forall i | 0 <= i < |s| && i != |s| - 3 ensures IsDigit(s[i]) {
      if i > |ip| {
        assert s[i] == fp[i - |ip| - 1];
      }
    }
  }

  /** Reading an output amount back as a float gives the hundredths it was
      written from. */
  lemma FmtReadsBack(d: Decimal)
    ensures IsPlainLiteral(Fmt(d))
    ensures DecimalLiteral(Fmt(d)) == Some(Decimal(Cents(d), 2))
  {
    var c := Cents(d);
    assert Pow10(2) == 100;
    var ip, fp := NatToString(c / 100), TwoDigits(c % 100);
    assert Fmt(d) == ip + "." + fp;
    NatToStringValue(c / 100);
    TwoDigitsValue(c % 100);
    LiteralOfParts(ip, fp);
    DigitsValueAppend(ip, fp);
    assert DigitsValue(ip + fp) == (c / 100) * 100 + c % 100;
  }

  /** Formatting is idempotent: re-parsing an output amount and formatting
      it again yields the same text. */
  lemma FmtIdempotent(d: Decimal)
    ensures IsPlainLiteral(Fmt(d))
    ensures DecimalLiteral(Fmt(d)).Some?
    ensures Fmt(DecimalLiteral(Fmt(d)).value) == Fmt(d)
  {
    FmtReadsBack(d);
    assert Pow10(2) == 100 && Pow10(0) == 1;
    assert Cents(Decimal(Cents(d), 2)) == Cents(d);
  }

  /** An amount the text never mentions is written 0.00. */
  lemma FmtZero()
    ensures Fmt(Zero) == "0.00"
  {
    assert Cents(Zero) == 0;
    assert NatToString(0) == "0";
    assert Pow10(2) == 100;
    assert TwoDigits(0) == "00";
  }

  // ---------------------------------------------------------------------
  // The tree, described declaratively
  // ---------------------------------------------------------------------

  // Each element is described twice: an ...Element function fixes the
  // shape over already-rendered texts, and an ...Of function feeds it the
  // texts the builder renders from the record.

  function IdentificacaoRpsOf(data: NFSeData): Element {
    Element("IdentificacaoRps", map[], None, [
      Leaf("Numero", data.numero),
      Leaf("Serie", data.serieRps),
      Leaf("Tipo", data.tipoRps)])
  }

  function ValoresElement(servicos: string, pis: string, cofins: string, ir: string, inss: string, csll: string): Element {
    Element("Valores", map[], None, [
      Leaf("ValorServicos", servicos),
      Leaf("IssRetido", "2"),
      Leaf("ValorPis", pis),
      Leaf("ValorCofins", cofins),
      Leaf("ValorIr", ir),
      Leaf("ValorInss", inss),
      Leaf("ValorCsll", csll)])
  }

  /** The amounts block: IRRF is written as ValorIr, ISS is not written. */
  function ValoresOf(v: ValoresServico): Element {
    ValoresElement(Fmt(v.valorServicos), Fmt(v.pis), Fmt(v.cofins), Fmt(v.irrf), Fmt(v.inss), Fmt(v.csll))
  }

  function ServicoElement(valores: Element, p: Prestador, discriminacao: string): Element {
    Element("Servico", map[], None, [
      valores,
      Leaf("ItemListaServico", p.itemListaServico),
      Leaf("CodigoMunicipio", p.municipio),
      Leaf("Discriminacao", discriminacao)])
  }

  function ServicoOf(data: NFSeData): Element {
    ServicoElement(ValoresOf(data.valores), data.prestador, data.discriminacao)
  }

  function EnderecoOf(p: Prestador): Element {
    Element("Endereco", map[], None, [
      Leaf("Endereco", p.endereco),
      Leaf("Numero", p.numero),
      Leaf("Complemento", p.complemento),
      Leaf("Bairro", p.bairro),
      Leaf("CodigoMunicipio", p.municipio),
      Leaf("Uf", p.uf),
      Leaf("Cep", p.cep)])
  }

  function IdentificacaoPrestadorOf(p: Prestador): Element {
    Element("IdentificacaoPrestador", map[], None, [
      Leaf("Cnpj", p.cnpj),
      Leaf("InscricaoMunicipal", p.inscricaoMunicipal)])
  }

  function PrestadorServicoOf(p: Prestador): Element {
    Element("PrestadorServico", map[], None, [
      IdentificacaoPrestadorOf(p),
      Leaf("RazaoSocial", p.razaoSocial),
      EnderecoOf(p)])
  }

  function InfNfseElement(data: NFSeData, dataIso: string, competencia: string, servico: Element): Element {
    Element("InfNfse", map["Id" := "NFS" + data.numero], None, [
      Leaf("Numero", data.numero),
      Leaf("CodigoVerificacao", data.codigoVerificacao),
      Leaf("DataEmissao", dataIso),
      IdentificacaoRpsOf(data),
      Leaf("NaturezaOperacao", data.naturezaOperacao),
      Leaf("OptanteSimplesNacional", data.optanteSimples),
      Leaf("IncentivadorCultural", data.incentivadorCultural),
      Leaf("Competencia", competencia),
      servico,
      PrestadorServicoOf(data.prestador)])
  }

  /** The invoice proper, with its two date strings and its service block. */
  function InfNfseOf(data: NFSeData): Element {
    InfNfseElement(data, data.DataIso(), data.Competencia(), ServicoOf(data))
  }

  /** The CompNfse subtree of one invoice. */
  function CompNfseOf(data: NFSeData): Element {
    Element("CompNfse", map[], None, [Element("Nfse", map[], None, [InfNfseOf(data)])])
  }

  /** The whole document of one invoice. */
  function TreeOf(data: NFSeData): Element {
    Element("ListaNfse", map[], None, [CompNfseOf(data)])
  }

  // ---------------------------------------------------------------------
  // The builder
  // ---------------------------------------------------------------------

  /** `build_comp_nfse`: creates the CompNfse element and adds every
      sub-element with its text in the original's order; each group of
      sub-elements is built by one of the methods below. */
  method BuildCompNfse(data: NFSeData) returns (compNfse: Element)
    ensures compNfse == CompNfseOf(data)
  {
    var inf := Element("InfNfse", map["Id" := "NFS" + data.numero], None, []);
    inf := Append(inf, Leaf("Numero", data.numero));
    inf := Append(inf, Leaf("CodigoVerificacao", data.codigoVerificacao));
    inf := Append(inf, Leaf("DataEmissao", data.DataIso()));
    var identRps := BuildIdentificacaoRps(data);
    inf := Append(inf, identRps);
    inf := Append(inf, Leaf("NaturezaOperacao", data.naturezaOperacao));
    inf := Append(inf, Leaf("OptanteSimplesNacional", data.optanteSimples));
    inf := Append(inf, Leaf("IncentivadorCultural", data.incentivadorCultural));
    inf := Append(inf, Leaf("Competencia", data.Competencia()));
    var servico := BuildServico(data);
    inf := Append(inf, servico);
    var prestadorNode := BuildPrestadorServico(data.prestador);
    inf := Append(inf, prestadorNode);
    assert inf.children == InfNfseOf(data).children;
    assert inf == InfNfseOf(data);

    var nfse := Append(NewElement("Nfse"), inf);
    assert nfse.children == [inf];
    compNfse := Append(NewElement("CompNfse"), nfse);
    assert compNfse.children == [nfse];
  }

  /** The RPS identification: number, series and type. */
  method BuildIdentificacaoRps(data: NFSeData) returns (identRps: Element)
    ensures identRps == IdentificacaoRpsOf(data)
  {
    identRps := NewElement("IdentificacaoRps");
    identRps := Append(identRps, Leaf("Numero", data.numero));
    identRps := Append(identRps, Leaf("Serie", data.serieRps));
    identRps := Append(identRps, Leaf("Tipo", data.tipoRps));
  }

  /** The amounts block: six formatted amounts and the fixed IssRetido "2". */
  method BuildValores(v: ValoresServico) returns (valores: Element)
    ensures valores == ValoresOf(v)
  {
    valores := NewElement("Valores");
    valores := Append(valores, Leaf("ValorServicos", Fmt(v.valorServicos)));
    valores := Append(valores, Leaf("IssRetido", "2"));
    valores := Append(valores, Leaf("ValorPis", Fmt(v.pis)));
    valores := Append(valores, Leaf("ValorCofins", Fmt(v.cofins)));
    valores := Append(valores, Leaf("ValorIr", Fmt(v.irrf)));
    valores := Append(valores, Leaf("ValorInss", Fmt(v.inss)));
    valores := Append(valores, Leaf("ValorCsll", Fmt(v.csll)));
  }

  /** The service block: amounts, service item, municipality, description. */
  method BuildServico(data: NFSeData) returns (servico: Element)
    ensures servico == ServicoOf(data)
  {
    servico := NewElement("Servico");
    var valores := BuildValores(data.valores);
    servico := Append(servico, valores);
    var prestador := data.prestador;
    servico := Append(servico, Leaf("ItemListaServico", prestador.itemListaServico));
    servico := Append(servico, Leaf("CodigoMunicipio", prestador.municipio));
    servico := Append(servico, Leaf("Discriminacao", data.discriminacao));
  }

  /** The provider block: identification, name and address. */
  method BuildPrestadorServico(prestador: Prestador) returns (prestadorNode: Element)
    ensures prestadorNode == PrestadorServicoOf(prestador)
  {
    prestadorNode := NewElement("PrestadorServico");
    var identPrestador := NewElement("IdentificacaoPrestador");
    identPrestador := Append(identPrestador, Leaf("Cnpj", prestador.cnpj));
    identPrestador := Append(identPrestador, Leaf("InscricaoMunicipal", prestador.inscricaoMunicipal));
    assert identPrestador == IdentificacaoPrestadorOf(prestador);
    prestadorNode := Append(prestadorNode, identPrestador);
    prestadorNode := Append(prestadorNode, Leaf("RazaoSocial", prestador.razaoSocial));
    var endereco := BuildEndereco(prestador);
    prestadorNode := Append(prestadorNode, endereco);
  }

  /** The provider's address. */
  method BuildEndereco(prestador: Prestador) returns (endereco: Element)
    ensures endereco == EnderecoOf(prestador)
  {
    endereco := NewElement("Endereco");
    endereco := Append(endereco, Leaf("Endereco", prestador.endereco));
    endereco := Append(endereco, Leaf("Numero", prestador.numero));
    endereco := Append(endereco, Leaf("Complemento", prestador.complemento));
    endereco := Append(endereco, Leaf("Bairro", prestador.bairro));
    endereco := Append(endereco, Leaf("CodigoMunicipio", prestador.municipio));
    endereco := Append(endereco, Leaf("Uf", prestador.uf));
    endereco := Append(endereco, Leaf("Cep", prestador.cep));
  }

  /** `build_tree`: a ListaNfse root holding the CompNfse of the record. The
      tree depends on the record alone, so building the same record twice
      gives equal trees. */
  method BuildTree(data: NFSeData) returns (root: Element)
    ensures root == TreeOf(data)
  {
    root := NewElement("ListaNfse");
    var compNfse := BuildCompNfse(data);
    root := Append(root, compNfse);
  }

  // ---------------------------------------------------------------------
  // Properties of the tree
  // ---------------------------------------------------------------------

  /** The path from the root to the invoice proper. */
  const InfPath: seq<string> := ["CompNfse", "Nfse", "InfNfse"]

  /** The ABRASF order of the InfNfse children. */
  const InfNfseTags: seq<string> := ["Numero", "CodigoVerificacao", "DataEmissao", "IdentificacaoRps",
    "NaturezaOperacao", "OptanteSimplesNacional", "IncentivadorCultural", "Competencia", "Servico", "PrestadorServico"]

  /** The ABRASF order of the Valores children. */
  const ValoresTags: seq<string> := ["ValorServicos", "IssRetido", "ValorPis", "ValorCofins", "ValorIr", "ValorInss", "ValorCsll"]

  /** The root ListaNfse has exactly one child CompNfse, which has exactly
      one Nfse, which has exactly one InfNfse; following that path from the
      root reaches the invoice. */
  lemma TreeNesting(data: NFSeData)
    ensures var t := TreeOf(data);
      && t.tag == "ListaNfse" && HasChildTags(t, ["CompNfse"])
      && HasChildTags(t.children[0], ["Nfse"])
      && HasChildTags(t.children[0].children[0], ["InfNfse"])
      && FindPath(t, InfPath) == Some(InfNfseOf(data))
  {
    var t := TreeOf(data);
    var comp := CompNfseOf(data);
    var nfse := comp.children[0];
    FindAt(t, "CompNfse", 0);
    FindAt(comp, "Nfse", 0);
    FindAt(nfse, "InfNfse", 0);
    assert InfPath[1..] == ["Nfse", "InfNfse"] && InfPath[1..][1..] == ["InfNfse"];
  }

  lemma InfNfseTagsDistinct()
    ensures DistinctTags(InfNfseTags)
  {
  }

  /** InfNfse carries `Id` = "NFS" + the number, its children come in the
      ABRASF order, and the number it is identified by is the text of both
      InfNfse/Numero and InfNfse/IdentificacaoRps/Numero. */
  lemma InfNfseLayout(data: NFSeData, dataIso: string, competencia: string, servico: Element)
    requires servico.tag == "Servico"
    ensures var inf := InfNfseElement(data, dataIso, competencia, servico);
      && HasChildTags(inf, InfNfseTags)
      && "Id" in inf.attrs && inf.attrs["Id"] == "NFS" + data.numero
      && TextAt(inf, ["Numero"]) == Some(data.numero)
      && TextAt(inf, ["IdentificacaoRps", "Numero"]) == Some(data.numero)
  {
    var inf := InfNfseElement(data, dataIso, competencia, servico);
    assert HasChildTags(inf, InfNfseTags);
    InfNfseTagsDistinct();
    FindDistinct(inf, InfNfseTags, 0);
    FindDistinct(inf, InfNfseTags, 3);
    FindAt(IdentificacaoRpsOf(data), "Numero", 0);
  }

  /** Reading the invoice's leaves back gives the values it was built from:
      the verification code, the two date strings, the RPS series and type
      and the three descriptive codes. */
  lemma InfNfseReadsBack(data: NFSeData, dataIso: string, competencia: string, servico: Element)
    requires servico.tag == "Servico"
    ensures var inf := InfNfseElement(data, dataIso, competencia, servico);
      && TextAt(inf, ["CodigoVerificacao"]) == Some(data.codigoVerificacao)
      && TextAt(inf, ["DataEmissao"]) == Some(dataIso)
      && TextAt(inf, ["IdentificacaoRps", "Serie"]) == Some(data.serieRps)
      && TextAt(inf, ["IdentificacaoRps", "Tipo"]) == Some(data.tipoRps)
      && TextAt(inf, ["NaturezaOperacao"]) == Some(data.naturezaOperacao)
      && TextAt(inf, ["OptanteSimplesNacional"]) == Some(data.optanteSimples)
      && TextAt(inf, ["IncentivadorCultural"]) == Some(data.incentivadorCultural)
      && TextAt(inf, ["Competencia"]) == Some(competencia)
      && FindPath(inf, ["Servico"]) == Some(servico)
      && FindPath(inf, ["PrestadorServico"]) == Some(PrestadorServicoOf(data.prestador))
  {
    var inf := InfNfseElement(data, dataIso, competencia, servico);
    InfNfseLayout(data, dataIso, competencia, servico);
    InfNfseTagsDistinct();
    FindDistinct(inf, InfNfseTags, 1);
    FindDistinct(inf, InfNfseTags, 2);
    FindDistinct(inf, InfNfseTags, 3);
    FindDistinct(inf, InfNfseTags, 4);
    FindDistinct(inf, InfNfseTags, 5);
    FindDistinct(inf, InfNfseTags, 6);
    FindDistinct(inf, InfNfseTags, 7);
    FindDistinct(inf, InfNfseTags, 8);
    FindDistinct(inf, InfNfseTags, 9);
    FindAt(IdentificacaoRpsOf(data), "Serie", 1);
    FindAt(IdentificacaoRpsOf(data), "Tipo", 2);
  }

  const ServicoTags: seq<string> := ["Valores", "ItemListaServico", "CodigoMunicipio", "Discriminacao"]

  lemma ValoresTagsDistinct()
    ensures DistinctTags(ValoresTags)
  {
  }

  /** Valores has its seven children in the ABRASF order; each amount leaf
      holds the text it was given, IssRetido is "2" whatever the amounts,
      and there is no ValorIss child. */
  lemma ValoresLayout(servicos: string, pis: string, cofins: string, ir: string, inss: string, csll: string)
    ensures var v := ValoresElement(servicos, pis, cofins, ir, inss, csll);
      && HasChildTags(v, ValoresTags) && "ValorIss" !in ValoresTags
      && TextAt(v, ["ValorServicos"]) == Some(servicos)
      && TextAt(v, ["IssRetido"]) == Some("2")
      && TextAt(v, ["ValorPis"]) == Some(pis)
      && TextAt(v, ["ValorCofins"]) == Some(cofins)
      && TextAt(v, ["ValorIr"]) == Some(ir)
      && TextAt(v, ["ValorInss"]) == Some(inss)
      && TextAt(v, ["ValorCsll"]) == Some(csll)
  {
    var v := ValoresElement(servicos, pis, cofins, ir, inss, csll);
    assert HasChildTags(v, ValoresTags);
    ValoresTagsDistinct();
    FindDistinct(v, ValoresTags, 0);
    FindDistinct(v, ValoresTags, 1);
    FindDistinct(v, ValoresTags, 2);
    FindDistinct(v, ValoresTags, 3);
    FindDistinct(v, ValoresTags, 4);
    FindDistinct(v, ValoresTags, 5);
    FindDistinct(v, ValoresTags, 6);
  }

  /** Servico holds the amounts block first, then the service item, the
      provider's municipality and the description. */
  lemma ServicoLayout(valores: Element, p: Prestador, discriminacao: string)
    requires valores.tag == "Valores"
    ensures var sv := ServicoElement(valores, p, discriminacao);
      && HasChildTags(sv, ServicoTags)
      && FindPath(sv, ["Valores"]) == Some(valores)
      && TextAt(sv, ["ItemListaServico"]) == Some(p.itemListaServico)
      && TextAt(sv, ["CodigoMunicipio"]) == Some(p.municipio)
      && TextAt(sv, ["Discriminacao"]) == Some(discriminacao)
  {
    var sv := ServicoElement(valores, p, discriminacao);
    assert HasChildTags(sv, ServicoTags);
    FindDistinct(sv, ServicoTags, 0);
    FindDistinct(sv, ServicoTags, 1);
    FindDistinct(sv, ServicoTags, 2);
    FindDistinct(sv, ServicoTags, 3);
  }

  /** Every provider field is written once under PrestadorServico, CNPJ and
      municipal registration under IdentificacaoPrestador and the address
      under Endereco. */
  lemma PrestadorReadsBack(p: Prestador)
    ensures var ps := PrestadorServicoOf(p);
      && TextAt(ps, ["IdentificacaoPrestador", "Cnpj"]) == Some(p.cnpj)
      && TextAt(ps, ["IdentificacaoPrestador", "InscricaoMunicipal"]) == Some(p.inscricaoMunicipal)
      && TextAt(ps, ["RazaoSocial"]) == Some(p.razaoSocial)
      && FindPath(ps, ["Endereco"]) == Some(EnderecoOf(p))
  {
    var ps := PrestadorServicoOf(p);
    FindAt(ps, "IdentificacaoPrestador", 0);
    FindAt(ps, "RazaoSocial", 1);
    FindAt(ps, "Endereco", 2);
    FindAt(IdentificacaoPrestadorOf(p), "Cnpj", 0);
    FindAt(IdentificacaoPrestadorOf(p), "InscricaoMunicipal", 1);
  }

  const EnderecoTags: seq<string> := ["Endereco", "Numero", "Complemento", "Bairro", "CodigoMunicipio", "Uf", "Cep"]

  lemma EnderecoReadsBack(p: Prestador)
    ensures var e := EnderecoOf(p);
      && HasChildTags(e, EnderecoTags)
      && TextAt(e, ["Endereco"]) == Some(p.endereco)
      && TextAt(e, ["Numero"]) == Some(p.numero)
      && TextAt(e, ["Complemento"]) == Some(p.complemento)
      && TextAt(e, ["Bairro"]) == Some(p.bairro)
      && TextAt(e, ["CodigoMunicipio"]) == Some(p.municipio)
      && TextAt(e, ["Uf"]) == Some(p.uf)
      && TextAt(e, ["Cep"]) == Some(p.cep)
  {
    var e := EnderecoOf(p);
    assert HasChildTags(e, EnderecoTags);
    assert DistinctTags(EnderecoTags);
    FindDistinct(e, EnderecoTags, 0);
    FindDistinct(e, EnderecoTags, 1);
    FindDistinct(e, EnderecoTags, 2);
    FindDistinct(e, EnderecoTags, 3);
    FindDistinct(e, EnderecoTags, 4);
    FindDistinct(e, EnderecoTags, 5);
    FindDistinct(e, EnderecoTags, 6);
  }

  // ---------------------------------------------------------------------
  // The whole document
  // ---------------------------------------------------------------------

  /** Paths from the root to the service, amounts, provider and address blocks. */
  const ServicoPath: seq<string> := InfPath + ["Servico"]
  const ValoresPath: seq<string> := ServicoPath + ["Valores"]
  const PrestadorPath: seq<string> := InfPath + ["PrestadorServico"]
  const EnderecoPath: seq<string> := PrestadorPath + ["Endereco"]

  /** Each block of the document sits at its ABRASF path below the root. */
  lemma TreeBlocks(data: NFSeData)
    ensures var t := TreeOf(data);
      && FindPath(t, ServicoPath) == Some(ServicoOf(data))
      && FindPath(t, ValoresPath) == Some(ValoresOf(data.valores))
      && FindPath(t, PrestadorPath) == Some(PrestadorServicoOf(data.prestador))
      && FindPath(t, EnderecoPath) == Some(EnderecoOf(data.prestador))
  {
    var t := TreeOf(data);
    var inf := InfNfseOf(data);
    TreeNesting(data);
    InfNfseReadsBack(data, data.DataIso(), data.Competencia(), ServicoOf(data));
    FindPathVia(t, InfPath, inf, ["Servico"]);
    FindPathVia(t, InfPath, inf, ["PrestadorServico"]);
    ServicoLayout(ValoresOf(data.valores), data.prestador, data.discriminacao);
    FindPathVia(t, ServicoPath, ServicoOf(data), ["Valores"]);
    PrestadorReadsBack(data.prestador);
    FindPathVia(t, PrestadorPath, PrestadorServicoOf(data.prestador), ["Endereco"]);
  }

  /** The six amounts are written under Servico/Valores as two-decimal
      texts, ValorIr carrying the withheld IRRF, and IssRetido is "2". */
  lemma AmountsWritten(data: NFSeData)
    ensures var t, v := TreeOf(data), data.valores;
      && TextAt(t, ValoresPath + ["ValorServicos"]) == Some(Fmt(v.valorServicos))
      && TextAt(t, ValoresPath + ["IssRetido"]) == Some("2")
      && TextAt(t, ValoresPath + ["ValorPis"]) == Some(Fmt(v.pis))
      && TextAt(t, ValoresPath + ["ValorCofins"]) == Some(Fmt(v.cofins))
      && TextAt(t, ValoresPath + ["ValorIr"]) == Some(Fmt(v.irrf))
      && TextAt(t, ValoresPath + ["ValorInss"]) == Some(Fmt(v.inss))
      && TextAt(t, ValoresPath + ["ValorCsll"]) == Some(Fmt(v.csll))
  {
    var t, v := TreeOf(data), data.valores;
    var vs := ValoresOf(v);
    TreeBlocks(data);
    ValoresLayout(Fmt(v.valorServicos), Fmt(v.pis), Fmt(v.cofins), Fmt(v.irrf), Fmt(v.inss), Fmt(v.csll));
    FindPathVia(t, ValoresPath, vs, ["ValorServicos"]);
    FindPathVia(t, ValoresPath, vs, ["IssRetido"]);
    FindPathVia(t, ValoresPath, vs, ["ValorPis"]);
    FindPathVia(t, ValoresPath, vs, ["ValorCofins"]);
    FindPathVia(t, ValoresPath, vs, ["ValorIr"]);
    FindPathVia(t, ValoresPath, vs, ["ValorInss"]);
    FindPathVia(t, ValoresPath, vs, ["ValorCsll"]);
  }

  /** Every provider field is written into the document; the municipality
      code appears twice, under Servico and under the address. */
  lemma ProviderWritten(data: NFSeData)
    ensures var t, p := TreeOf(data), data.prestador;
      && TextAt(t, PrestadorPath + ["IdentificacaoPrestador", "Cnpj"]) == Some(p.cnpj)
      && TextAt(t, PrestadorPath + ["IdentificacaoPrestador", "InscricaoMunicipal"]) == Some(p.inscricaoMunicipal)
      && TextAt(t, PrestadorPath + ["RazaoSocial"]) == Some(p.razaoSocial)
      && TextAt(t, EnderecoPath + ["Endereco"]) == Some(p.endereco)
      && TextAt(t, EnderecoPath + ["Numero"]) == Some(p.numero)
      && TextAt(t, EnderecoPath + ["Complemento"]) == Some(p.complemento)
      && TextAt(t, EnderecoPath + ["Bairro"]) == Some(p.bairro)
      && TextAt(t, EnderecoPath + ["CodigoMunicipio"]) == Some(p.municipio)
      && TextAt(t, EnderecoPath + ["Uf"]) == Some(p.uf)
      && TextAt(t, EnderecoPath + ["Cep"]) == Some(p.cep)
      && TextAt(t, ServicoPath + ["CodigoMunicipio"]) == Some(p.municipio)
      && TextAt(t, ServicoPath + ["ItemListaServico"]) == Some(p.itemListaServico)
  {
    var t, p := TreeOf(data), data.prestador;
    var ps, e, sv := PrestadorServicoOf(p), EnderecoOf(p), ServicoOf(data);
    TreeBlocks(data);
    PrestadorReadsBack(p);
    EnderecoReadsBack(p);
    ServicoLayout(ValoresOf(data.valores), p, data.discriminacao);
    FindPathVia(t, PrestadorPath, ps, ["IdentificacaoPrestador", "Cnpj"]);
    FindPathVia(t, PrestadorPath, ps, ["IdentificacaoPrestador", "InscricaoMunicipal"]);
    FindPathVia(t, PrestadorPath, ps, ["RazaoSocial"]);
    FindPathVia(t, EnderecoPath, e, ["Endereco"]);
    FindPathVia(t, EnderecoPath, e, ["Numero"]);
    FindPathVia(t, EnderecoPath, e, ["Complemento"]);
    FindPathVia(t, EnderecoPath, e, ["Bairro"]);
    FindPathVia(t, EnderecoPath, e, ["CodigoMunicipio"]);
    FindPathVia(t, EnderecoPath, e, ["Uf"]);
    FindPathVia(t, EnderecoPath, e, ["Cep"]);
    FindPathVia(t, ServicoPath, sv, ["CodigoMunicipio"]);
    FindPathVia(t, ServicoPath, sv, ["ItemListaServico"]);
  }

  /** The invoice number, verification code, both date strings and the
      descriptive codes are written at their ABRASF paths, and the InfNfse
      Id is "NFS" followed by the number written under Numero. */
  lemma InvoiceWritten(data: NFSeData)
    ensures var t := TreeOf(data);
      && FindPath(t, InfPath).Some?
      && "Id" in FindPath(t, InfPath).value.attrs
      && FindPath(t, InfPath).value.attrs["Id"] == "NFS" + data.numero
      && TextAt(t, InfPath + ["Numero"]) == Some(data.numero)
      && TextAt(t, InfPath + ["IdentificacaoRps", "Numero"]) == Some(data.numero)
      && TextAt(t, InfPath + ["CodigoVerificacao"]) == Some(data.codigoVerificacao)
      && TextAt(t, InfPath + ["DataEmissao"]) == Some(data.DataIso())
      && TextAt(t, InfPath + ["Competencia"]) == Some(data.Competencia())
      && TextAt(t, InfPath + ["IdentificacaoRps", "Serie"]) == Some(data.serieRps)
      && TextAt(t, InfPath + ["IdentificacaoRps", "Tipo"]) == Some(data.tipoRps)
      && TextAt(t, InfPath + ["NaturezaOperacao"]) == Some(data.naturezaOperacao)
      && TextAt(t, InfPath + ["OptanteSimplesNacional"]) == Some(data.optanteSimples)
      && TextAt(t, InfPath + ["IncentivadorCultural"]) == Some(data.incentivadorCultural)
      && TextAt(t, ServicoPath + ["Discriminacao"]) == Some(data.discriminacao)
  {
    var t, inf := TreeOf(data), InfNfseOf(data);
    TreeNesting(data);
    TreeBlocks(data);
    InfNfseLayout(data, data.DataIso(), data.Competencia(), ServicoOf(data));
    InfNfseReadsBack(data, data.DataIso(), data.Competencia(), ServicoOf(data));
    ServicoLayout(ValoresOf(data.valores), data.prestador, data.discriminacao);
    FindPathVia(t, InfPath, inf, ["Numero"]);
    FindPathVia(t, InfPath, inf, ["IdentificacaoRps", "Numero"]);
    FindPathVia(t, InfPath, inf, ["CodigoVerificacao"]);
    FindPathVia(t, InfPath, inf, ["DataEmissao"]);
    FindPathVia(t, InfPath, inf, ["Competencia"]);
    FindPathVia(t, InfPath, inf, ["IdentificacaoRps", "Serie"]);
    FindPathVia(t, InfPath, inf, ["IdentificacaoRps", "Tipo"]);
    FindPathVia(t, InfPath, inf, ["NaturezaOperacao"]);
    FindPathVia(t, InfPath, inf, ["OptanteSimplesNacional"]);
    FindPathVia(t, InfPath, inf, ["IncentivadorCultural"]);
    FindPathVia(t, ServicoPath, ServicoOf(data), ["Discriminacao"]);
  }

  /** The ISS amount never reaches the document: two records that differ
      only in it give the same tree. */
  lemma TreeIgnoresIss(data: NFSeData, iss: Decimal)
    ensures TreeOf(data.(valores := data.valores.(iss := iss))) == TreeOf(data)
  {
    var other := data.(valores := data.valores.(iss := iss));
    assert ValoresOf(other.valores) == ValoresOf(data.valores);
    assert ServicoOf(other) == ServicoOf(data);
    assert other.DataIso() == data.DataIso() && other.Competencia() == data.Competencia();
    assert InfNfseOf(other) == InfNfseOf(data);
  }

  /** Two amounts written alike have the same value in hundredths. */
  lemma SameFmtSameCents(a: Decimal, b: Decimal)
    requires Fmt(a) == Fmt(b)
    ensures Cents(a) == Cents(b)
  {
    FmtReadsBack(a);
    FmtReadsBack(b);
  }

  /** Everything the record holds except the ISS amount can be read back
      from the document: two records with the same tree agree on the
      number, code, issuance time, provider and descriptive fields, and on
      each of the six written amounts to the hundredth. */
  lemma TreeDeterminesRecord(a: NFSeData, b: NFSeData)
    ensures TreeOf(a) == TreeOf(b) ==>
      && a.numero == b.numero && a.codigoVerificacao == b.codigoVerificacao
      && a.dataEmissao == b.dataEmissao
      && a.prestador == b.prestador
      && a.discriminacao == b.discriminacao && a.naturezaOperacao == b.naturezaOperacao
      && a.optanteSimples == b.optanteSimples && a.incentivadorCultural == b.incentivadorCultural
      && a.serieRps == b.serieRps && a.tipoRps == b.tipoRps
      && Cents(a.valores.valorServicos) == Cents(b.valores.valorServicos)
      && Cents(a.valores.pis) == Cents(b.valores.pis) && Cents(a.valores.cofins) == Cents(b.valores.cofins)
      && Cents(a.valores.irrf) == Cents(b.valores.irrf) && Cents(a.valores.inss) == Cents(b.valores.inss)
      && Cents(a.valores.csll) == Cents(b.valores.csll)
  {
    if TreeOf(a) == TreeOf(b) {
      InvoiceWritten(a);
      InvoiceWritten(b);
      DerivedStringsDetermineTime(a, b);
      ProviderWritten(a);
      ProviderWritten(b);
      AmountsWritten(a);
      AmountsWritten(b);
      var va, vb := a.valores, b.valores;
      SameFmtSameCents(va.valorServicos, vb.valorServicos);
      SameFmtSameCents(va.pis, vb.pis);
      SameFmtSameCents(va.cofins, vb.cofins);
      SameFmtSameCents(va.irrf, vb.irrf);
      SameFmtSameCents(va.inss, vb.inss);
      SameFmtSameCents(va.csll, vb.csll);
    }
  }
}
